=== FILE: README.md ===
# Membership dashboard: query pipeline model

This project models the in-memory query pipeline of a gym membership
dashboard, a React application that loads membership records and lets staff
browse them. The model covers:

- the page's structured filter (status, location, membership type, session
  range and end-date range);
- the quick-filter token and how the two filters compose into the working set;
- the page's counts and its two facet lists (locations and membership types);
- the records table: free-text search, a single-key sort, ten-row pages and
  the view state that header clicks and Previous/Next update;
- the analytics panel: the status, type and location tallies, the chart
  series cut from them and the sessions overview;
- the filter editor: a draft filter edited by check-box toggles and by date
  and number inputs, then applied or cleared;
- the quick-filter panel: status, period and location buttons with their badges.

Modules, one per component plus shared helpers:

- `Seqs`: the order-preserving `filter` (`Filter`, with `Selects` saying
  exactly which positions survive) and first-seen de-duplication, i.e.
  `[...new Set(xs)]` (`Dedup`, `FirstSeen`).
- `Text`: ASCII lower-casing, `includes`, decimal rendering of integers and
  the `<` order on strings.
- `Membership`: `MembershipData`, `FilterOptions`, the default filter, the
  shared record predicates and counts, and the session sum.
- `IndexPage`: `applyFilters`, `applyQuickFilter`, `filteredData`, the badges
  and the facet lists.
- `TableSort`: the comparator, a functional stable insertion sort
  (`StableSort`) and the in-place array sort proved equal to it (`SortInPlace`).
- `DataTable`: the search, the pager and the `TableView` class holding
  `searchTerm`, `sortField`, `sortDirection` and `currentPage`.
- `MembershipChart`: the record-by-record `reduce` as a loop over a map and a
  key order (`CountBy`), proved equal to a fold of `Bump` (`Tally`); the
  chart series and the sessions overview.
- `FilterSidebar`: `toggleArrayFilter`, the input updaters with
  `parseInt(...) || fallback`, and the `FilterEditor` class holding the draft
  and the applied filter.
- `QuickFilters`: the period windows relative to a `now` parameter, the
  location buttons and the whole button panel.

A date field is a `Date(text, time)`. `text` is the raw string that search
and sort use. `time` is the timestamp `new Date(text)` gives, or `None` for
an invalid date; `None` fails every comparison, as NaN does. The current time
is a parameter.

The model follows the code where the code and the component's evident
intentions differ:

- the average is undefined on no records (NaN in the code);
- the page count is 0 for no rows;
- only `active`, `expired`, `sessions` and `no-sessions` narrow the working
  set. The page mounts its own inline quick-filter buttons, which emit only
  `all` and those four tokens. The quick-filter panel (`QuickFilters.tsx`) is
  not rendered by the page in these files. `PeriodTokensKeepAll`,
  `LocationShortcutsSpec`, `LocationShortcutKeys` and `PanelTokens` state what
  `applyQuickFilter` would do with the panel's period and location tokens: it
  falls to its default branch and keeps every record;
- a Max input of `0` becomes 100.

## Model

| member | source | states |
|---|---|---|
| `Membership.SessionsSumAppend` | src/pages/Index.tsx:195 | the session sum adds over concatenation |
| `Membership.SessionsSumSplit` | src/components/MembershipChart.tsx:133 | the sum equals the sum over records with sessions left plus the sum over records with a negative balance; zero balances add nothing |
| `Membership.SessionsTrichotomy` | src/pages/Index.tsx:103 | the >0, ==0 and <0 session counts add up to the number of records |
| `Seqs.Dedup` | src/pages/Index.tsx:105-106 | `[...new Set(xs)]` holds every element of the input, nothing else, and no element twice |
| `Seqs.DedupFirstSeen` | src/pages/Index.tsx:105-106 | the de-duplicated list is in first-occurrence order |
| `Seqs.FilterSelects` | src/pages/Index.tsx:52 | `filter` keeps exactly the positions whose element satisfies the predicate, in increasing order |
| `IndexPage.Admits` | src/pages/Index.tsx:52-82 | the chain of early rejections admits a record iff it meets all six criteria: status, location and type lists (an empty list imposes nothing), the session range, the start date and the end date |
| `IndexPage.ApplyFiltersSelects` | src/pages/Index.tsx:51-82 | `applyFilters` is the order-preserving subsequence of exactly the admitted records; a record is in the result iff it is in the input and admitted |
| `IndexPage.DefaultFilterAdmits` | src/pages/Index.tsx:29-35 | with the initial filter, a record is admitted iff 0 <= sessionsLeft <= 100, so records with more than 100 sessions are hidden |
| `IndexPage.QuickFilterTable` | src/pages/Index.tsx:85-98 | each token keeps exactly the records of its case, in order; any token other than the four filtering ones returns the input unchanged |
| `IndexPage.FilteredDataComposition` | src/pages/Index.tsx:100 | the working set is the records admitted by both filters, in original order, and equals the two filters applied in the other order |
| `IndexPage.ActivePlusExpired` | src/pages/Index.tsx:101-102 | the Active and Expired counts add up to the number of records |
| `IndexPage.NoSessionsBadgeMatchesFilter` | src/pages/Index.tsx:154 | the "No Sessions" badge (length minus with-sessions) equals the size of the `no-sessions` filter iff no balance is negative |
| `IndexPage.StatusShortcutsCount` | src/pages/Index.tsx:149-155 | each status button's badge is the size of what its token keeps on the unfiltered records, and for "No Sessions" iff no balance is negative |
| `IndexPage.TotalSessionsProperties` | src/pages/Index.tsx:195 | the total is 0 on no data, additive, and with no negative balance equals the total over the `sessions` filter |
| `IndexPage.AvailableLocationsSpec` | src/pages/Index.tsx:105 | the location facet is duplicate-free, never holds `''` or `'-'`, holds every other record location and nothing else, in first-seen order |
| `IndexPage.AvailableMembershipTypesSpec` | src/pages/Index.tsx:106 | the type facet is the duplicate-free, first-seen list of all membership names |
| `Text.Lower` | src/components/DataTable.tsx:30 | lower-casing keeps the length, maps each ASCII capital to its small letter and leaves every other character alone |
| `Text.ContainsEmpty` | src/components/DataTable.tsx:30 | every string contains the empty string |
| `Text.LexLessIrreflexive` | src/components/DataTable.tsx:38-39 | string `<` is irreflexive |
| `Text.LexLessAsymmetric` | src/components/DataTable.tsx:38-39 | string `<` is asymmetric |
| `Text.LexLessTransitive` | src/components/DataTable.tsx:38-39 | string `<` is transitive |
| `Text.LexLessTotal` | src/components/DataTable.tsx:38-39 | of two different strings one is below the other |
| `TableSort.KeyOrder` | src/components/DataTable.tsx:38-40 | keys are equal iff neither is below the other, and `<` on keys is asymmetric |
| `TableSort.Compare` | src/components/DataTable.tsx:34-41 | the comparator is 0 exactly on equal keys, positive exactly when `a` belongs after `b` in the chosen direction, negative exactly when before |
| `TableSort.OrderConsistent` | src/components/DataTable.tsx:34-41 | the comparator handed to `sort` is asymmetric and "not after" is transitive, so it is a consistent total preorder |
| `TableSort.SortByStable` | src/components/DataTable.tsx:34 | insertion sort with any consistent comparator keeps the relative order within a class of mutually tied records |
| `TableSort.AfterAsymmetric` | src/components/DataTable.tsx:34-41 | if `a` goes after `b`, then `b` does not go after `a` and the keys differ |
| `TableSort.NotAfterTransitive` | src/components/DataTable.tsx:34-41 | "not after" is transitive, so the comparator is a total preorder |
| `TableSort.StableSortSorted` | src/components/DataTable.tsx:34-41 | the sorted list is ordered, is a permutation of the input, and is non-decreasing on the key for `asc` and non-increasing for `desc` |
| `TableSort.StableSortStable` | src/components/DataTable.tsx:34-41 | records with equal keys keep their relative order |
| `TableSort.StableSortIdentity` | src/components/DataTable.tsx:34-41 | sorting an already sorted list changes nothing |
| `TableSort.StableSortIdempotent` | src/components/DataTable.tsx:34-41 | sorting twice is sorting once |
| `TableSort.InsertInPlace` | src/components/DataTable.tsx:34 | one insertion step moves the element at `i` into place among the sorted prefix and leaves the rest of the array unchanged |
| `TableSort.SortInPlace` | src/components/DataTable.tsx:34 | the in-place sort leaves the array holding `StableSort` of its old contents |
| `DataTable.SearchSelects` | src/components/DataTable.tsx:28-32 | the search keeps, in order, exactly the records with some field whose lower-cased text contains the lower-cased term |
| `DataTable.SearchEmptyTerm` | src/components/DataTable.tsx:28-32 | an empty term keeps every record |
| `DataTable.FilteredAndSorted` | src/components/DataTable.tsx:27-44 | the search result, copied and sorted in place, is the stable sort of the search |
| `DataTable.Page` | src/components/DataTable.tsx:46-49 | page p >= 1 is the window from (p-1)*10 up to min(N, p*10), has at most 10 rows, and is empty from (p-1)*10 >= N on |
| `DataTable.TotalPages` | src/components/DataTable.tsx:51 | the page count is 0 for no rows, and otherwise the fewest pages of ten that hold N rows |
| `DataTable.PagesCover` | src/components/DataTable.tsx:46-51 | pages 1 to totalPages laid end to end give back the whole list |
| `DataTable.PageBeyondEnd` | src/components/DataTable.tsx:46-51 | a page past the last one is empty |
| `DataTable.PreviousPage` | src/components/DataTable.tsx:188 | Previous gives a page >= 1, one less than p above page 1, and is a no-op exactly on page 1 |
| `DataTable.NextPage` | src/components/DataTable.tsx:196 | Next moves one page forward below the last page, clamps to the last page otherwise, and is a no-op exactly on it |
| `DataTable.TableView.constructor` | src/components/DataTable.tsx:21-24 | the view starts with no search term, sorted by end date descending, on page 1 |
| `DataTable.TableView.HandleSort` | src/components/DataTable.tsx:53-60 | a click on the current column flips the direction; a click on another column selects it ascending; page and search are kept |
| `DataTable.TableView.SetSearchTerm` | src/components/DataTable.tsx:78 | typing replaces the term and does not reset the page |
| `DataTable.TableView.Previous` | src/components/DataTable.tsx:188 | the page becomes `PreviousPage` of the old one; nothing else changes |
| `DataTable.TableView.Next` | src/components/DataTable.tsx:196 | the page becomes `NextPage` of the old one and the page count; nothing else changes |
| `DataTable.TableView.VisibleRows` | src/components/DataTable.tsx:46-49 | on a valid page number, the rows shown are the ten-row window `(currentPage - 1) * 10` to `currentPage * 10` of the searched and stably sorted records, cut at its end |
| `MembershipChart.BumpNames` | src/components/MembershipChart.tsx:14 | one `acc[k] = (acc[k] \|\| 0) + 1` keeps the key order, appending `k` if it is new |
| `MembershipChart.BumpCount` | src/components/MembershipChart.tsx:14 | one increment raises the count of `k` by one and no other count |
| `MembershipChart.TallySpec` | src/components/MembershipChart.tsx:13-16 | a tally lists each key once in first-seen order; each count is the key's number of occurrences; counts are positive and sum to the number of keys |
| `MembershipChart.RecordBumpPresent` | src/components/MembershipChart.tsx:14 | incrementing a key already in the record keeps its key set and bumps its entry in place |
| `MembershipChart.RecordBumpNew` | src/components/MembershipChart.tsx:14 | a new key is appended to the key order, keeps it duplicate-free, and its entry is appended with count 1 |
| `MembershipChart.CountBy` | src/components/MembershipChart.tsx:13-16 | the record-by-record update of a map and its key order ends with the tally of the keys of the included records |
| `MembershipChart.StatusTallySpec` | src/components/MembershipChart.tsx:13-18 | the pie has one positive slice per status present, named `Active` or `Expired`, counting the records of that status and covering all records |
| `MembershipChart.TypeTallySpec` | src/components/MembershipChart.tsx:20-23 | the type tally lists types in the type facet's order, counts each type's records and sums to the number of records |
| `MembershipChart.LocationTallySpec` | src/components/MembershipChart.tsx:29-34 | the location tally lists the location facet (never `''` or `'-'`), counts each location's records and sums to the records that have a location |
| `MembershipChart.BarLabel` | src/components/MembershipChart.tsx:26 | a bar label is a prefix of at most 20 code points of the name followed by `...`, which is appended even when nothing was cut |
| `MembershipChart.BarData` | src/components/MembershipChart.tsx:25-27 | the bar series has min(8, #types) entries, each the relabelled entry at the same position |
| `MembershipChart.BarDataSpec` | src/components/MembershipChart.tsx:25-27 | the bars are the first min(8, #types) types in first-seen order, under their labels, with their record counts |
| `MembershipChart.LocationBarData` | src/components/MembershipChart.tsx:36-38 | the location series is a prefix of the tally with at most 5 entries, and all of it when shorter |
| `MembershipChart.ChartSeries` | src/components/MembershipChart.tsx:13-38 | the three series built by single passes equal the tally-based definitions |
| `MembershipChart.SessionCardsAddUp` | src/components/MembershipChart.tsx:121-127 | "With Sessions" plus "No Sessions" never exceeds the record count and equals it iff no balance is negative |
| `MembershipChart.AverageSessions` | src/components/MembershipChart.tsx:139 | the average is the mean rounded to the nearest integer, halves up: 2nr - n <= 2S < 2nr + n |
| `MembershipChart.AverageWithinBounds` | src/components/MembershipChart.tsx:139 | the rounded average lies between any lower and upper bound of the balances |
| `FilterSidebar.ToggleArraySpec` | src/components/FilterSidebar.tsx:51-53 | a toggle flips whether the value is listed and no other value; an absent value is appended at the end; a present one is removed everywhere, the rest keeping their order |
| `FilterSidebar.ToggleArrayTwice` | src/components/FilterSidebar.tsx:48-54 | toggling an absent value twice restores the list |
| `FilterSidebar.ToggleArrayDistinct` | src/components/FilterSidebar.tsx:51-53 | toggling keeps a duplicate-free list duplicate-free |
| `FilterSidebar.Toggle` | src/components/FilterSidebar.tsx:48-54 | a toggle changes only the named list; the other lists, dates and session range are unchanged |
| `FilterSidebar.ParseIntRoundTrip` | src/components/FilterSidebar.tsx:176 | `parseInt` reads back the decimal form of every integer, whatever non-digit text follows, except `x` or `X` after a `0`, which starts a hexadecimal number |
| `FilterSidebar.ParseIntNoDigits` | src/components/FilterSidebar.tsx:176 | text without a digit parses as NaN |
| `FilterSidebar.ParseIntHex` | src/components/FilterSidebar.tsx:176 | without a radix, `0x` or `0X` switches `parseInt` to base 16 and reads the longest run of hexadecimal digits; with none it gives NaN |
| `FilterSidebar.OrElse` | src/components/FilterSidebar.tsx:176 | `x \|\| fallback` keeps a non-zero number and gives the fallback for NaN or 0 |
| `FilterSidebar.SessionInputsSpec` | src/components/FilterSidebar.tsx:176-186 | Min takes any typed number and 0 when empty; Max takes any typed number except 0, which like an empty input becomes 100 |
| `FilterSidebar.CrossedSessionsRange` | src/components/FilterSidebar.tsx:170-189 | nothing keeps min <= max: Min 50 and Max 10 are accepted, and then no record passes the filter |
| `FilterSidebar.SetStart` | src/components/FilterSidebar.tsx:147-150 | the start date input changes only `dateRange.start` |
| `FilterSidebar.SetEnd` | src/components/FilterSidebar.tsx:156-159 | the end date input changes only `dateRange.end` |
| `FilterSidebar.SetMin` | src/components/FilterSidebar.tsx:174-177 | the Min input changes only `sessionsRange.min` |
| `FilterSidebar.SetMax` | src/components/FilterSidebar.tsx:184-187 | the Max input changes only `sessionsRange.max` |
| `FilterSidebar.FilterEditor.constructor` | src/components/FilterSidebar.tsx:29 | the draft starts as a copy of the applied filter |
| `FilterSidebar.FilterEditor.ToggleArrayFilter` | src/components/FilterSidebar.tsx:48-54 | a check-box toggles the value in the draft; the applied filter is untouched |
| `FilterSidebar.FilterEditor.SetStartDate` | src/components/FilterSidebar.tsx:147-150 | the draft's start date is replaced; the applied filter is untouched |
| `FilterSidebar.FilterEditor.SetEndDate` | src/components/FilterSidebar.tsx:156-159 | the draft's end date is replaced; the applied filter is untouched |
| `FilterSidebar.FilterEditor.SetMinSessions` | src/components/FilterSidebar.tsx:174-177 | the draft's minimum is set from the input; the applied filter is untouched |
| `FilterSidebar.FilterEditor.SetMaxSessions` | src/components/FilterSidebar.tsx:184-187 | the draft's maximum is set from the input; the applied filter is untouched |
| `FilterSidebar.FilterEditor.Apply` | src/components/FilterSidebar.tsx:31-34 | the page's filter becomes exactly the draft, which is kept |
| `FilterSidebar.FilterEditor.Clear` | src/components/FilterSidebar.tsx:36-46 | draft and applied filter both become the initial filter, so clearing twice is clearing once |
| `QuickFilters.StatusGroupCounts` | src/components/QuickFilters.tsx:51-55 | the status group is the page's status buttons: all records, the size of each token's filter, and length minus with-sessions |
| `QuickFilters.PeriodCountsOrdered` | src/components/QuickFilters.tsx:36-40 | a weekly order is a recent order, so the weekly badge never exceeds the recent badge, which never exceeds the record count |
| `QuickFilters.PeriodTokensKeepAll` | src/components/QuickFilters.tsx:62-64 | `applyQuickFilter` would return every record for the panel's period tokens |
| `QuickFilters.BeforeComma` | src/components/QuickFilters.tsx:72 | `split(',')[0]` is a comma-free prefix that stops at the first comma |
| `QuickFilters.ShortcutLabel` | src/components/QuickFilters.tsx:72 | the label is the text before the first comma, or the whole location when that text is empty; a non-empty prefix of a non-empty location |
| `QuickFilters.LocationShortcuts` | src/components/QuickFilters.tsx:70-75 | at most four buttons, one per leading location, in order |
| `QuickFilters.LocationShortcutsSpec` | src/components/QuickFilters.tsx:70-75 | from the location facet: at most four buttons with distinct `location-` tokens and non-zero badges, for which `applyQuickFilter` would return its input unchanged |
| `QuickFilters.LocationShortcutCounts` | src/components/QuickFilters.tsx:73 | a location taken from the records has a positive exact-match count |
| `QuickFilters.LocationShortcutKeys` | src/components/QuickFilters.tsx:71 | distinct locations give distinct tokens, and none of them would narrow `applyQuickFilter` |
| `QuickFilters.PanelTokens` | src/components/QuickFilters.tsx:46-77 | of all panel buttons exactly Active, Expired, With Sessions and No Sessions select a filtering token |

## Left out

- Data fetching, the refetch interval and notifications: remote I/O through a service that is not part of this model.
- Rendering: markup, icons, tabs, badge styling and the "Showing x to y of N" caption. This includes the per-tab `filter` calls that feed the tables, and the metric card component.
- Date parsing and formatting: `new Date(text)` and `toLocaleDateString` are not modelled. Each date carries its parsed timestamp, or `None` for an invalid date.
- The clock: `now` is a parameter of the period windows.
- Floating point: `Math.round(sum / length)` is computed exactly in integers.
- `Membership.MembershipData`: `sessionsLeft` is a JavaScript `number` and is modelled as an unbounded integer; a fractional, infinite or NaN balance is not modelled. With a NaN balance the code behaves differently from the model: it passes every session range, because both comparisons in `applyFilters` are false; it is in neither the `sessions` nor the `no-sessions` count; it turns the total and the average into NaN; and it makes the sessions comparator return 0 against every value, which is not a total preorder, so `StableSortSorted` does not describe the resulting order. `IndexPage.DefaultFilterAdmits`, the session counts and `TableSort.OrderConsistent` hold for integer balances only.
- `MembershipChart.AverageSessions`: requires at least one record, because the code yields NaN there.
- `Text.Lower`: lower-cases ASCII letters only; Unicode case mapping is not modelled.
- `FilterSidebar.ParseInt`: skips ASCII white space only. Numbers too large for a double are not rounded. The radix-less `0x` prefix is modelled, but a number input never yields one.
- `Text.LexLess`: compares code points, which agrees with JavaScript's UTF-16 code-unit order only outside the astral planes.
- `MembershipChart.BarLabel`: `slice(0, 20)` counts UTF-16 code units while the model counts code points. The two cuts agree only when the first 20 characters lie outside the astral planes. With an astral character among them, JavaScript keeps fewer characters, or cuts a surrogate pair in half, and the clause for names of at most 20 characters no longer describes the code.
- `Object.entries`: lists the keys that are canonical array indices (`0`, or a digit string without a leading zero whose value is below 2^32 - 1) first, in numeric order. The tallies are kept in insertion order, so such a location or type name would be listed differently; other digit strings, such as `"012"`, keep insertion order as modelled.
- `MembershipChart.BumpNames`, `MembershipChart.BumpCount`, `MembershipChart.CountBy`: the record is a `{}` object, which inherits `Object.prototype`. For a name such as `constructor` or `toString`, `(acc[k] || 0) + 1` starts from the inherited function and yields a string, not 1; `__proto__` never becomes an own key. The model treats every name as an ordinary new key, so for those names it does not match the code.
- The sort algorithm: the engine's own sort (TimSort in V8) is modelled as a stable insertion sort. Both are stable, so for a comparator that is a total preorder they produce the same order. Only the sequence of comparisons differs.
- The sort key: only the six columns with a clickable header are modelled, and `<` is never applied to mixed types.
- Previous/Next disabling: the disabled state of the buttons is rendering. Their handlers are modelled, and a click on a disabled button would be a no-op anyway.
- React mechanics: memoisation, batched state updates and the draft not re-syncing when the applied filter changes from outside the editor are not modelled.
- Annotation editing (comments, notes, tags): this is not part of this model; no code for it appears in the modelled files.

=== FILE: data_table.dfy ===
/** The records table: free-text search over every field, the single-key
    sort, a pager with ten rows per page, and the view state (`sortField`,
    `sortDirection`, `currentPage`) that header clicks and the
    previous/next buttons update. */
module DataTable {
  import opened Seqs
  import opened Text
  import opened Membership
  import opened TableSort

  const ItemsPerPage: nat := 10

  // ---------------------------------------------------------------------
  // Search
  // ---------------------------------------------------------------------

  /** `Object.values(item)`, each in its `toString()` form. */
  function Fields(m: MembershipData): seq<string>
  {
    [m.uniqueId, m.memberId, m.firstName, m.lastName, m.email, m.membershipName,
     m.endDate.text, m.location, IntToString(m.sessionsLeft), m.itemId,
     m.orderDate.text, m.soldBy, m.membershipId, m.frozen, m.paid, StatusName(m.status)]
  }

  /** Some field, lower-cased, contains the lower-cased search term. */
  predicate Matches(term: string, m: MembershipData)
  {
    exists i :: 0 <= i < |Fields(m)| && Contains(Lower(Fields(m)[i]), Lower(term))
  }

  function Matcher(term: string): MembershipData -> bool
  {
    m => Matches(term, m)
  }

  function Search(term: string, data: seq<MembershipData>): seq<MembershipData>
  {
    Filter(Matcher(term), data)
  }

  /** The search keeps, in order, exactly the records with a matching field. */
  lemma SearchSelects(term: string, data: seq<MembershipData>)
    ensures Selects(Search(term, data), data, Matcher(term))
    ensures forall m :: m in Search(term, data) <==> m in data && Matches(term, m)
  {
    FilterSelects(Matcher(term), data);
    forall m ensures m in Search(term, data) <==> m in data && Matches(term, m) {
      FilterMember(Matcher(term), data, m);
    }
  }

  /** An empty search term admits every record. */
  lemma SearchEmptyTerm(data: seq<MembershipData>)
    ensures Search("", data) == data
  {
    forall m | m in data ensures Matches("", m) {
      ContainsEmpty(Lower(Fields(m)[0]));
    }
    FilterKeepsAll(Matcher(""), data);
  }

  /** `filteredAndSortedData`: the search result, copied into a fresh array
      and sorted there in place. */
  method FilteredAndSorted(data: seq<MembershipData>, term: string, field: SortField, dir: SortDirection)
    returns (r: seq<MembershipData>)
    ensures r == StableSort(field, dir, Search(term, data))
  {
    var filtered := Search(term, data);
    var a := new MembershipData[|filtered|](i requires 0 <= i < |filtered| => filtered[i]);
    assert a[..] == filtered;
    SortInPlace(a, field, dir);
    r := a[..];
  }

  // ---------------------------------------------------------------------
  // Pager
  // ---------------------------------------------------------------------

  /** How `slice` reads an index: a negative one counts from the end, and
      the result is clamped to `[0, len]`. */
  function SliceIndex(i: int, len: nat): (r: nat)
    ensures r <= len
  {
    if i < 0 then (if len + i < 0 then 0 else len + i)
    else if i > len then len
    else i
  }

  /** `s.slice(start, end)`. */
  function Slice<T>(s: seq<T>, start: int, end: int): seq<T>
  {
    var from, to := SliceIndex(start, |s|), SliceIndex(end, |s|);
    if from < to then s[from..to] else []
  }

  /** `paginatedData`: the rows of a 1-based page. For a page from 1 on it is
      the window from `(page-1)*10` up to `min(N, page*10)`, at most ten
      rows, and empty once the window starts at or past the end. */
  function Page<T>(s: seq<T>, page: int): (r: seq<T>)
    ensures page >= 1 ==> r == s[Min(|s|, (page - 1) * ItemsPerPage)..Min(|s|, page * ItemsPerPage)]
    ensures page >= 1 ==> |r| <= ItemsPerPage
    ensures page >= 1 && (page - 1) * ItemsPerPage >= |s| ==> r == []
  {
    var startIndex := (page - 1) * ItemsPerPage;
    Slice(s, startIndex, startIndex + ItemsPerPage)
  }

  /** `Math.ceil(N / itemsPerPage)`: the fewest pages of ten that hold `n`
      rows, which is 0 for no rows. */
  function TotalPages(n: nat): (r: nat)
    ensures n == 0 ==> r == 0
    ensures n > 0 ==> (r - 1) * ItemsPerPage < n <= r * ItemsPerPage
  {
    (n + ItemsPerPage - 1) / ItemsPerPage
  }

  function AllPages<T>(s: seq<T>): seq<seq<T>>
  {
    seq(TotalPages(|s|), i requires 0 <= i => Page(s, i + 1))
  }

  function Flatten<T>(ss: seq<seq<T>>): seq<T>
  {
    if ss == [] then [] else Flatten(ss[..|ss| - 1]) + ss[|ss| - 1]
  }

  lemma {:induction false} PagesPrefix<T>(s: seq<T>, k: nat)
    requires k <= TotalPages(|s|)
    ensures Flatten(AllPages(s)[..k]) == s[..Min(|s|, k * ItemsPerPage)]
  {
    if k > 0 {
      PagesPrefix(s, k - 1);
      assert AllPages(s)[..k][..k - 1] == AllPages(s)[..k - 1];
      assert (k - 1) * ItemsPerPage < |s|;
    }
  }

  /** Pages 1 to `TotalPages(N)`, laid end to end, give back the whole list:
      no row is skipped or shown twice. */
  lemma PagesCover<T>(s: seq<T>)
    ensures Flatten(AllPages(s)) == s
  {
    PagesPrefix(s, TotalPages(|s|));
    assert AllPages(s)[..TotalPages(|s|)] == AllPages(s);
  }

  /** A page past the last one shows nothing. */
  lemma PageBeyondEnd<T>(s: seq<T>, page: int)
    requires page > TotalPages(|s|)
    ensures Page(s, page) == []
  {
    assert (page - 1) * ItemsPerPage >= TotalPages(|s|) * ItemsPerPage;
  }

  /** "Previous": `Math.max(1, prev - 1)`; a no-op exactly on page 1. */
  function PreviousPage(page: int): (r: int)
    ensures r >= 1
    ensures page >= 1 ==> (r == page <==> page == 1)
    ensures page > 1 ==> r == page - 1
  {
    Max(1, page - 1)
  }

  /** "Next": `Math.min(totalPages, prev + 1)`; a no-op exactly on the last
      page, and a page past the end is brought back to the last one. */
  function NextPage(page: int, totalPages: int): (r: int)
    ensures r <= totalPages
    ensures page < totalPages ==> r == page + 1
    ensures page >= totalPages ==> r == totalPages
    ensures r == page <==> page == totalPages
  {
    Min(totalPages, page + 1)
  }

  // ---------------------------------------------------------------------
  // View state
  // ---------------------------------------------------------------------

  class TableView {
    var searchTerm: string
    var sortField: SortField
    var sortDirection: SortDirection
    var currentPage: int

    /** Pages are numbered from 1. */
    ghost predicate Valid()
      reads this
    {
      currentPage >= 1
    }

    constructor ()
      ensures Valid()
      ensures searchTerm == "" && sortField == EndDate && sortDirection == Desc && currentPage == 1
    {
      searchTerm := "";
      sortField := EndDate;
      sortDirection := Desc;
      currentPage := 1;
    }

    /** A header click: the current column flips direction, another column
        becomes the key in ascending order. The page is left as it is. */
    method HandleSort(field: SortField)
      requires Valid()
      modifies this
      ensures Valid()
      ensures sortField == field
      ensures sortDirection == if field == old(sortField)
                               then (if old(sortDirection) == Asc then Desc else Asc)
                               else Asc
      ensures searchTerm == old(searchTerm) && currentPage == old(currentPage)
    {
      if field == sortField {
        sortDirection := if sortDirection == Asc then Desc else Asc;
      } else {
        sortField := field;
        sortDirection := Asc;
      }
    }

    /** Typing in the search box; the current page is not reset, so it may
        now lie past the last page and show no rows. */
    method SetSearchTerm(term: string)
      requires Valid()
      modifies this
      ensures Valid()
      ensures searchTerm == term
      ensures sortField == old(sortField) && sortDirection == old(sortDirection)
      ensures currentPage == old(currentPage)
    {
      searchTerm := term;
    }

    method Previous()
      requires Valid()
      modifies this
      ensures Valid()
      ensures currentPage == PreviousPage(old(currentPage))
      ensures searchTerm == old(searchTerm) && sortField == old(sortField) && sortDirection == old(sortDirection)
    {
      currentPage := PreviousPage(currentPage);
    }

    /** The button is only shown when there is more than one page. */
    method Next(data: seq<MembershipData>)
      requires Valid()
      requires TotalPages(|Search(searchTerm, data)|) > 1
      modifies this
      ensures Valid()
      ensures currentPage == NextPage(old(currentPage), TotalPages(|Search(searchTerm, data)|))
      ensures searchTerm == old(searchTerm) && sortField == old(sortField) && sortDirection == old(sortDirection)
    {
      currentPage := NextPage(currentPage, TotalPages(|Search(searchTerm, data)|));
    }

    /** The rows the table shows: the current page of the searched and sorted records. */
    method VisibleRows(data: seq<MembershipData>) returns (rows: seq<MembershipData>)
      requires Valid()
      ensures rows == Page(StableSort(sortField, sortDirection, Search(searchTerm, data)), currentPage)
      ensures var sorted := StableSort(sortField, sortDirection, Search(searchTerm, data));
        rows == sorted[Min(|sorted|, (currentPage - 1) * ItemsPerPage)..Min(|sorted|, currentPage * ItemsPerPage)]
      ensures |rows| <= ItemsPerPage
    {
      var sorted := FilteredAndSorted(data, searchTerm, sortField, sortDirection);
      rows := Page(sorted, currentPage);
    }
  }
}

=== FILE: filter_sidebar.dfy ===
/** The filter editor: a draft copy of the filter that check-box toggles,
    date inputs and number inputs update, and that "Apply" hands to the page
    while "Clear" resets both the draft and the page's filter. */
module FilterSidebar {
  import opened Seqs
  import opened Text
  import opened Membership
  import IndexPage

  // ---------------------------------------------------------------------
  // Check-box lists
  // ---------------------------------------------------------------------

  /** `list.includes(value) ? list.filter(item => item !== value) : [...list, value]`. */
  function ToggleArray(list: seq<string>, value: string): seq<string>
  {
    if value in list then Filter((item: string) => item != value, list) else list + [value]
  }

  /** Toggling flips whether `value` is listed and leaves every other value
      as it was; an absent value is appended at the end, a present one is
      removed everywhere while the rest keep their order. */
  lemma ToggleArraySpec(list: seq<string>, value: string)
    ensures value in ToggleArray(list, value) <==> value !in list
    ensures forall x :: x != value ==> (x in ToggleArray(list, value) <==> x in list)
    ensures value !in list ==> ToggleArray(list, value) == list + [value]
    ensures value in list ==> Selects(ToggleArray(list, value), list, (item: string) => item != value)
  {
    var ne := (item: string) => item != value;
    FilterSelects(ne, list);
    FilterMember(ne, list, value);
    forall x | x != value ensures x in ToggleArray(list, value) <==> x in list {
      FilterMember(ne, list, x);
    }
  }

  /** Toggling a value that is not listed, and then toggling it again, gives back the list. */
  lemma ToggleArrayTwice(list: seq<string>, value: string)
    requires value !in list
    ensures ToggleArray(ToggleArray(list, value), value) == list
  {
    var ne := (item: string) => item != value;
    FilterAppend(ne, list, [value]);
    FilterSingleton(ne, value);
    FilterKeepsAll(ne, list);
  }

  /** Lists built by toggling never hold a value twice. */
  lemma ToggleArrayDistinct(list: seq<string>, value: string)
    requires Distinct(list)
    ensures Distinct(ToggleArray(list, value))
  {
    if value in list {
      var ne := (item: string) => item != value;
      var r, idx := ToggleArray(list, value), Kept(ne, list);
      FilterSelects(ne, list);
      forall i, j | 0 <= i < j < |r| ensures r[i] != r[j] {
        assert idx[i] < idx[j];
      }
    }
  }

  /** The three check-box lists of a filter. */
  datatype ListKey = StatusList | LocationList | TypeList

  function GetList(f: FilterOptions, key: ListKey): seq<string>
  {
    match key
    case StatusList => f.status
    case LocationList => f.locations
    case TypeList => f.membershipTypes
  }

  /** `{ ...prev, [key]: toggled }`. */
  function Toggle(f: FilterOptions, key: ListKey, value: string): (g: FilterOptions)
    ensures GetList(g, key) == ToggleArray(GetList(f, key), value)
    ensures forall k :: k != key ==> GetList(g, k) == GetList(f, k)
    ensures g.dateRange == f.dateRange && g.sessionsRange == f.sessionsRange
  {
    var list := ToggleArray(GetList(f, key), value);
    match key
    case StatusList => f.(status := list)
    case LocationList => f.(locations := list)
    case TypeList => f.(membershipTypes := list)
  }

  // ---------------------------------------------------------------------
  // Number inputs
  // ---------------------------------------------------------------------

  /** The white space `parseInt` skips before the number (ASCII only). */
  predicate IsSpace(c: char) { c == ' ' || c == '\t' || c == '\n' || c == '\r' || c == '\U{B}' || c == '\U{C}' }

  function SkipSpace(s: string): (r: string)
    ensures r <= s || (|r| <= |s| && r == s[|s| - |r|..])
    ensures r == [] || !IsSpace(r[0])
  {
    if s != [] && IsSpace(s[0]) then SkipSpace(s[1..]) else s
  }

  predicate AllDigits(s: string)
  {
    forall i :: 0 <= i < |s| ==> IsDigit(s[i])
  }

  /** The longest prefix of `s` made of decimal digits. */
  function DigitPrefix(s: string): (r: string)
    ensures r <= s
    ensures AllDigits(r)
    ensures |r| < |s| ==> !IsDigit(s[|r|])
  {
    if s == [] || !IsDigit(s[0]) then [] else [s[0]] + DigitPrefix(s[1..])
  }

  /** The value of a string of decimal digits. */
  function DigitsValue(ds: string): nat
    requires AllDigits(ds)
  {
    if ds == [] then 0
    else
      var last := ds[|ds| - 1];
      assert IsDigit(last);
      DigitsValue(ds[..|ds| - 1]) * 10 + (last as int - '0' as int)
  }

  /** The letter after `0` that makes a radix-less `parseInt` read base 16. */
  predicate IsHexMark(c: char) { c == 'x' || c == 'X' }

  predicate IsHexDigit(c: char)
  {
    IsDigit(c) || 'a' <= c <= 'f' || 'A' <= c <= 'F'
  }

  function HexDigitValue(c: char): (v: nat)
    requires IsHexDigit(c)
    ensures v < 16
    ensures IsDigit(c) ==> v == c as int - '0' as int
  {
    if IsDigit(c) then c as int - '0' as int
    else if 'a' <= c <= 'f' then c as int - 'a' as int + 10
    else c as int - 'A' as int + 10
  }

  predicate AllHexDigits(s: string)
  {
    forall i :: 0 <= i < |s| ==> IsHexDigit(s[i])
  }

  /** The longest prefix of `s` made of hexadecimal digits. */
  function HexPrefix(s: string): (r: string)
    ensures r <= s
    ensures AllHexDigits(r)
    ensures |r| < |s| ==> !IsHexDigit(s[|r|])
  {
    if s == [] || !IsHexDigit(s[0]) then [] else [s[0]] + HexPrefix(s[1..])
  }

  /** The value of a string of hexadecimal digits. */
  function HexValue(hs: string): nat
    requires AllHexDigits(hs)
  {
    if hs == [] then 0
    else
      var last := hs[|hs| - 1];
      assert IsHexDigit(last);
      HexValue(hs[..|hs| - 1]) * 16 + HexDigitValue(last)
  }

  /** `parseInt(text)` without a radix: leading white space, an optional sign,
      then either `0x`/`0X` and the longest run of hexadecimal digits, or the
      longest run of decimal digits; `None` (NaN) when that run is empty. */
  function ParseInt(text: string): Option<int>
  {
    ParseSigned(SkipSpace(text))
  }

  /** An optional sign and the magnitude after it. */
  function ParseSigned(t: string): Option<int>
  {
    var negative := |t| > 0 && t[0] == '-';
    var body := if |t| > 0 && (t[0] == '-' || t[0] == '+') then t[1..] else t;
    var magnitude := ParseMagnitude(body);
    if magnitude.None? then None
    else
      var v: int := magnitude.value;
      Some(if negative then -v else v)
  }

  /** The digits after the sign, in base 16 behind a `0x` prefix and in base
      10 otherwise. */
  function ParseMagnitude(body: string): Option<nat>
  {
    if HasHexPrefix(body) then
      var hs := HexPrefix(body[2..]);
      if hs == [] then None else Some(HexValue(hs))
    else
      var ds := DigitPrefix(body);
      if ds == [] then None else Some(DigitsValue(ds))
  }

  predicate HasHexPrefix(body: string)
  {
    |body| >= 2 && body[0] == '0' && IsHexMark(body[1])
  }

  lemma {:induction false} NatToStringDigits(n: nat)
    ensures AllDigits(NatToString(n))
    ensures DigitsValue(NatToString(n)) == n
  {
    if n >= 10 {
      NatToStringDigits(n / 10);
      var s := NatToString(n);
      assert s[..|s| - 1] == NatToString(n / 10);
    } else {
      assert NatToString(n)[..0] == [];
    }
  }

  lemma {:induction false} DigitPrefixOfDigits(ds: string, rest: string)
    requires AllDigits(ds)
    requires rest == [] || !IsDigit(rest[0])
    ensures DigitPrefix(ds + rest) == ds
  {
    if ds != [] {
      DigitPrefixOfDigits(ds[1..], rest);
      assert (ds + rest)[1..] == ds[1..] + rest;
    } else {
      assert ds + rest == rest;
    }
  }

  /** Decimal digits read back as their value, unless they are a lone `0`
      followed by `x` or `X`, which starts a hexadecimal number. */
  lemma ParseIntOfDigits(ds: string, rest: string)
    requires ds != [] && AllDigits(ds)
    requires rest == [] || !IsDigit(rest[0])
    requires ds != "0" || rest == [] || !IsHexMark(rest[0])
    ensures ParseInt(ds + rest) == Some(DigitsValue(ds))
  {
    var t := ds + rest;
    assert t[0] == ds[0] && IsDigit(t[0]);
    assert SkipSpace(t) == t;
    if |ds| >= 2 {
      assert t[1] == ds[1] && IsDigit(t[1]);
    } else if rest != [] {
      assert t[1] == rest[0];
    }
    assert !HasHexPrefix(t);
    DigitPrefixOfDigits(ds, rest);
    assert ParseSigned(t) == Some(DigitsValue(ds));
  }

  /** The negation of a parsed number; NaN stays NaN. */
  function Negate(x: Option<int>): Option<int>
  {
    if x.Some? then Some(-x.value) else None
  }

  /** A minus sign in front of a number without a sign negates it. */
  lemma ParseMinus(body: string)
    requires body != [] && IsDigit(body[0])
    ensures ParseInt(['-'] + body) == Negate(ParseInt(body))
  {
    var t := ['-'] + body;
    assert t[0] == '-' && t[1..] == body;
    assert SkipSpace(t) == t;
    assert SkipSpace(body) == body;
  }

  /** `parseInt` reads back the decimal form of any integer, whatever
      non-digit text follows it (`"12.5"` reads as 12), except that `0`
      followed by `x` or `X` starts a hexadecimal number. */
  lemma ParseIntRoundTrip(n: int, rest: string)
    requires rest == [] || !IsDigit(rest[0])
    requires n == 0 ==> rest == [] || !IsHexMark(rest[0])
    ensures ParseInt(IntToString(n) + rest) == Some(n)
  {
    if n < 0 {
      ParseIntOfMinusNat(-n, rest);
    } else {
      ParseIntOfNat(n, rest);
    }
  }

  lemma ParseIntOfNat(m: nat, rest: string)
    requires rest == [] || !IsDigit(rest[0])
    requires m == 0 ==> rest == [] || !IsHexMark(rest[0])
    ensures ParseInt(NatToString(m) + rest) == Some(m)
  {
    NatToStringDigits(m);
    if NatToString(m) == "0" {
      assert DigitsValue("0") == 0;
    }
    ParseIntOfDigits(NatToString(m), rest);
  }

  lemma ParseIntOfMinusNat(m: nat, rest: string)
    requires rest == [] || !IsDigit(rest[0])
    requires m == 0 ==> rest == [] || !IsHexMark(rest[0])
    ensures ParseInt(("-" + NatToString(m)) + rest) == Some(-(m as int))
  {
    var ds := NatToString(m);
    NatToStringDigits(m);
    assert IsDigit((ds + rest)[0]);
    if ds == "0" {
      assert DigitsValue("0") == 0;
    }
    calc {
      ParseInt(("-" + ds) + rest);
      { assert ("-" + ds) + rest == ['-'] + (ds + rest); }
      ParseInt(['-'] + (ds + rest));
      { ParseMinus(ds + rest); }
      Negate(ParseInt(ds + rest));
      { ParseIntOfDigits(ds, rest); }
      Negate(Some(DigitsValue(ds)));
    }
  }

  /** Text without any digit reads as NaN. */
  lemma ParseIntNoDigits(text: string)
    requires forall i :: 0 <= i < |text| ==> !IsDigit(text[i])
    ensures ParseInt(text) == None
  {
    var t := SkipSpace(text);
    var body := if |t| > 0 && (t[0] == '-' || t[0] == '+') then t[1..] else t;
    assert body == [] || body[0] in text;
    assert !HasHexPrefix(body);
    assert DigitPrefix(body) == [];
  }

  lemma {:induction false} HexPrefixOfHex(hs: string, rest: string)
    requires AllHexDigits(hs)
    requires rest == [] || !IsHexDigit(rest[0])
    ensures HexPrefix(hs + rest) == hs
  {
    if hs != [] {
      HexPrefixOfHex(hs[1..], rest);
      assert (hs + rest)[1..] == hs[1..] + rest;
    } else {
      assert hs + rest == rest;
    }
  }

  /** Behind `0x` or `0X` the longest run of hexadecimal digits is read in
      base 16 (`"0x1F"` reads as 31), and a prefix with no such digit after
      it reads as NaN. */
  lemma ParseIntHex(mark: char, hs: string, rest: string)
    requires IsHexMark(mark)
    requires AllHexDigits(hs)
    requires rest == [] || !IsHexDigit(rest[0])
    ensures ParseInt(['0', mark] + hs + rest) == if hs == [] then None else Some(HexValue(hs))
  {
    var t := ['0', mark] + hs + rest;
    assert SkipSpace(t) == t;
    assert HasHexPrefix(t) && t[2..] == hs + rest;
    HexPrefixOfHex(hs, rest);
  }

  /** `x || fallback` for a number: NaN and 0 are falsy and give the fallback. */
  function OrElse(x: Option<int>, fallback: int): (r: int)
    ensures x.Some? && x.value != 0 ==> r == x.value
    ensures x.None? || x.value == 0 ==> r == fallback
  {
    if x.Some? && x.value != 0 then x.value else fallback
  }

  /** The "Min" input: `parseInt(value) || 0`. */
  function MinInput(text: string): int
  {
    OrElse(ParseInt(text), 0)
  }

  /** The "Max" input: `parseInt(value) || 100`. */
  function MaxInput(text: string): int
  {
    OrElse(ParseInt(text), 100)
  }

  /** Typing a number into "Min" sets exactly that bound, and clearing the
      input sets 0; "Max" also takes any number back, except that 0 (like an
      empty input) becomes 100. */
  lemma SessionInputsSpec(n: int)
    ensures MinInput(IntToString(n)) == n
    ensures MaxInput(IntToString(n)) == if n == 0 then 100 else n
    ensures MinInput("") == 0 && MaxInput("") == 100
  {
    ParseIntRoundTrip(n, []);
    assert IntToString(n) + [] == IntToString(n);
  }

  /** The two inputs are independent: a minimum above the maximum is
      accepted, and then no record passes the filter. */
  lemma CrossedSessionsRange(f: FilterOptions, data: seq<MembershipData>)
    ensures SetMax(SetMin(f, "50"), "10").sessionsRange == SessionsRange(50, 10)
    ensures ApplyFiltersEmpty(SetMax(SetMin(f, "50"), "10"), data)
  {
    SessionInputsSpec(50);
    SessionInputsSpec(10);
    assert IntToString(50) == "50" && IntToString(10) == "10";
    var g := SetMax(SetMin(f, "50"), "10");
    assert g.sessionsRange == SessionsRange(50, 10);
    forall m | m in data ensures !IndexPage.Admitter(g)(m) {
      assert !IndexPage.SessionsOk(g, m);
    }
    FilterEmpty(IndexPage.Admitter(g), data);
  }

  predicate ApplyFiltersEmpty(f: FilterOptions, data: seq<MembershipData>)
  {
    IndexPage.ApplyFilters(f, data) == []
  }

  // ---------------------------------------------------------------------
  // Single-field edits of the draft
  // ---------------------------------------------------------------------

  function SetStart(f: FilterOptions, d: Date): (g: FilterOptions)
    ensures g.dateRange == DateRange(d, f.dateRange.end)
    ensures g.status == f.status && g.locations == f.locations
            && g.membershipTypes == f.membershipTypes && g.sessionsRange == f.sessionsRange
  {
    f.(dateRange := f.dateRange.(start := d))
  }

  function SetEnd(f: FilterOptions, d: Date): (g: FilterOptions)
    ensures g.dateRange == DateRange(f.dateRange.start, d)
    ensures g.status == f.status && g.locations == f.locations
            && g.membershipTypes == f.membershipTypes && g.sessionsRange == f.sessionsRange
  {
    f.(dateRange := f.dateRange.(end := d))
  }

  function SetMin(f: FilterOptions, text: string): (g: FilterOptions)
    ensures g.sessionsRange == SessionsRange(MinInput(text), f.sessionsRange.max)
    ensures g.status == f.status && g.locations == f.locations
            && g.membershipTypes == f.membershipTypes && g.dateRange == f.dateRange
  {
    f.(sessionsRange := f.sessionsRange.(min := MinInput(text)))
  }

  function SetMax(f: FilterOptions, text: string): (g: FilterOptions)
    ensures g.sessionsRange == SessionsRange(f.sessionsRange.min, MaxInput(text))
    ensures g.status == f.status && g.locations == f.locations
            && g.membershipTypes == f.membershipTypes && g.dateRange == f.dateRange
  {
    f.(sessionsRange := f.sessionsRange.(max := MaxInput(text)))
  }

  // ---------------------------------------------------------------------
  // Editor state
  // ---------------------------------------------------------------------

  /** The editor: its draft (`localFilters`) and the page's applied filter,
      which only "Apply" and "Clear" change. */
  class FilterEditor {
    var localFilters: FilterOptions
    var filters: FilterOptions

    /** The draft starts as a copy of the applied filter. */
    constructor (applied: FilterOptions)
      ensures localFilters == applied && filters == applied
    {
      localFilters := applied;
      filters := applied;
    }

    method ToggleArrayFilter(key: ListKey, value: string)
      modifies this
      ensures localFilters == Toggle(old(localFilters), key, value)
      ensures filters == old(filters)
    {
      localFilters := Toggle(localFilters, key, value);
    }

    method SetStartDate(d: Date)
      modifies this
      ensures localFilters == SetStart(old(localFilters), d)
      ensures filters == old(filters)
    {
      localFilters := SetStart(localFilters, d);
    }

    method SetEndDate(d: Date)
      modifies this
      ensures localFilters == SetEnd(old(localFilters), d)
      ensures filters == old(filters)
    {
      localFilters := SetEnd(localFilters, d);
    }

    method SetMinSessions(text: string)
      modifies this
      ensures localFilters == SetMin(old(localFilters), text)
      ensures filters == old(filters)
    {
      localFilters := SetMin(localFilters, text);
    }

    method SetMaxSessions(text: string)
      modifies this
      ensures localFilters == SetMax(old(localFilters), text)
      ensures filters == old(filters)
    {
      localFilters := SetMax(localFilters, text);
    }

    /** "Apply Filters": the page takes the draft as it is. */
    method Apply()
      modifies this
      ensures filters == old(localFilters) && localFilters == old(localFilters)
    {
      filters := localFilters;
    }

    /** "Clear": draft and page filter both return to the initial filter. */
    method Clear()
      modifies this
      ensures localFilters == DefaultFilters() && filters == DefaultFilters()
    {
      localFilters := DefaultFilters();
      filters := localFilters;
    }
  }
}

=== FILE: index_page.dfy ===
/** The dashboard page: the structured filter, the quick filter, their
    composition into the working set, the status and session counts and the
    facet lists offered by the filter editor. Everything here is a pure
    function of the loaded records and the current filter state. */
module IndexPage {
  import opened Seqs
  import opened Membership

  // ---------------------------------------------------------------------
  // Structured filter
  // ---------------------------------------------------------------------

  /** An empty list imposes no constraint; otherwise the field must be listed. */
  predicate ListAdmits(list: seq<string>, value: string)
  {
    |list| > 0 ==> value in list
  }

  predicate StatusOk(f: FilterOptions, m: MembershipData) { ListAdmits(f.status, StatusName(m.status)) }

  predicate LocationOk(f: FilterOptions, m: MembershipData) { ListAdmits(f.locations, m.location) }

  predicate TypeOk(f: FilterOptions, m: MembershipData) { ListAdmits(f.membershipTypes, m.membershipName) }

  predicate SessionsOk(f: FilterOptions, m: MembershipData)
  {
    f.sessionsRange.min <= m.sessionsLeft <= f.sessionsRange.max
  }

  /** An empty start bound is no bound; otherwise the end date must not be
      before it (an invalid date on either side compares as false and so
      never rejects). */
  predicate StartOk(f: FilterOptions, m: MembershipData)
  {
    f.dateRange.start.text != "" ==> !DateBefore(m.endDate, f.dateRange.start)
  }

  predicate EndOk(f: FilterOptions, m: MembershipData)
  {
    f.dateRange.end.text != "" ==> !DateBefore(f.dateRange.end, m.endDate)
  }

  /** The callback of `applyFilters`: a chain of early rejections. A record is
      admitted exactly when it meets all six criteria, and rejected exactly
      when it fails at least one. */
  function Admits(f: FilterOptions, m: MembershipData): (b: bool)
    ensures b <==> StatusOk(f, m) && LocationOk(f, m) && TypeOk(f, m)
                   && SessionsOk(f, m) && StartOk(f, m) && EndOk(f, m)
  {
    if |f.status| > 0 && StatusName(m.status) !in f.status then false
    else if |f.locations| > 0 && m.location !in f.locations then false
    else if |f.membershipTypes| > 0 && m.membershipName !in f.membershipTypes then false
    else if m.sessionsLeft < f.sessionsRange.min || m.sessionsLeft > f.sessionsRange.max then false
    else if f.dateRange.start.text != "" && DateBefore(m.endDate, f.dateRange.start) then false
    else if f.dateRange.end.text != "" && DateBefore(f.dateRange.end, m.endDate) then false
    else true
  }

  function Admitter(f: FilterOptions): MembershipData -> bool
  {
    m => Admits(f, m)
  }

  function ApplyFilters(f: FilterOptions, data: seq<MembershipData>): seq<MembershipData>
  {
    Filter(Admitter(f), data)
  }

  /** `applyFilters` returns, in their original order, exactly the records
      that meet every criterion. */
  lemma ApplyFiltersSelects(f: FilterOptions, data: seq<MembershipData>)
    ensures Selects(ApplyFilters(f, data), data, Admitter(f))
    ensures forall m :: m in ApplyFilters(f, data) <==> m in data && Admits(f, m)
  {
    FilterSelects(Admitter(f), data);
    forall m ensures m in ApplyFilters(f, data) <==> m in data && Admits(f, m) {
      FilterMember(Admitter(f), data, m);
    }
  }

  /** With the default filter a record is admitted exactly when its session
      balance lies in [0, 100]: records with more than 100 sessions (or a
      negative balance) are hidden although the user chose no filter. */
  lemma DefaultFilterAdmits(data: seq<MembershipData>)
    ensures ApplyFilters(DefaultFilters(), data)
         == Filter((m: MembershipData) => 0 <= m.sessionsLeft <= 100, data)
  {
    FilterAgree(Admitter(DefaultFilters()), (m: MembershipData) => 0 <= m.sessionsLeft <= 100, data);
  }

  // ---------------------------------------------------------------------
  // Quick filter
  // ---------------------------------------------------------------------

  /** The tokens `applyQuickFilter` recognises; every other token (`all`,
      `recent`, `weekly`, `expiring`, `location-…`) falls to the default branch. */
  predicate IsFilteringToken(token: string)
  {
    token == "active" || token == "expired" || token == "sessions" || token == "no-sessions"
  }

  /** `applyQuickFilter`: a switch on the selected token. */
  function ApplyQuickFilter(token: string, data: seq<MembershipData>): seq<MembershipData>
  {
    if token == "active" then Filter(IsActive, data)
    else if token == "expired" then Filter(IsExpired, data)
    else if token == "sessions" then Filter(HasSessions, data)
    else if token == "no-sessions" then Filter(NoSessions, data)
    else data
  }

  /** The per-record test the quick filter applies for a token. */
  predicate QuickAdmits(token: string, m: MembershipData)
  {
    match token
    case "active" => m.status == Active
    case "expired" => m.status == Expired
    case "sessions" => m.sessionsLeft > 0
    case "no-sessions" => m.sessionsLeft == 0
    case _ => true
  }

  function QuickAdmitter(token: string): MembershipData -> bool
  {
    m => QuickAdmits(token, m)
  }

  /** For every token, exactly one row of the quick-filter table decides
      admission, the result keeps the input order, and a token other than the
      four filtering ones returns the input unchanged. */
  lemma QuickFilterTable(token: string, data: seq<MembershipData>)
    ensures ApplyQuickFilter(token, data) == Filter(QuickAdmitter(token), data)
    ensures Selects(ApplyQuickFilter(token, data), data, QuickAdmitter(token))
    ensures !IsFilteringToken(token) ==> ApplyQuickFilter(token, data) == data
  {
    var q := QuickAdmitter(token);
    if token == "active" {
      FilterAgree(IsActive, q, data);
    } else if token == "expired" {
      FilterAgree(IsExpired, q, data);
    } else if token == "sessions" {
      FilterAgree(HasSessions, q, data);
    } else if token == "no-sessions" {
      FilterAgree(NoSessions, q, data);
    } else {
      FilterKeepsAll(q, data);
    }
    FilterSelects(q, data);
  }

  // ---------------------------------------------------------------------
  // Working set
  // ---------------------------------------------------------------------

  /** `filteredData = applyQuickFilter(applyFilters(membershipData))`. */
  function FilteredData(f: FilterOptions, token: string, data: seq<MembershipData>): seq<MembershipData>
  {
    ApplyQuickFilter(token, ApplyFilters(f, data))
  }

  /** The working set holds, in original order, exactly the records admitted
      by both filters, so the two filters may be applied in either order. */
  lemma FilteredDataComposition(f: FilterOptions, token: string, data: seq<MembershipData>)
    ensures FilteredData(f, token, data)
         == Filter((m: MembershipData) => Admits(f, m) && QuickAdmits(token, m), data)
    ensures FilteredData(f, token, data) == ApplyFilters(f, ApplyQuickFilter(token, data))
  {
    var both := (m: MembershipData) => Admits(f, m) && QuickAdmits(token, m);
    var both' := (m: MembershipData) => QuickAdmits(token, m) && Admits(f, m);
    QuickFilterTable(token, ApplyFilters(f, data));
    QuickFilterTable(token, data);
    FilterBoth(QuickAdmitter(token), Admitter(f), both, data);
    FilterBoth(Admitter(f), QuickAdmitter(token), both', data);
    FilterAgree(both, both', data);
  }

  // ---------------------------------------------------------------------
  // Counts and metrics
  // ---------------------------------------------------------------------

  /** The "No Sessions" badge: `membershipData.length - membersWithSessions.length`. */
  function NoSessionsBadge(data: seq<MembershipData>): int { |data| - WithSessionsCount(data) }

  /** Status has exactly two values, so the Active and Expired metrics add up to the total. */
  lemma ActivePlusExpired(data: seq<MembershipData>)
    ensures ActiveCount(data) + ExpiredCount(data) == |data|
  {
    FilterSplit(IsActive, IsExpired, data);
  }

  /** The "No Sessions" badge equals the size of what the `no-sessions` quick
      filter keeps exactly when no record has a negative session balance. */
  lemma NoSessionsBadgeMatchesFilter(data: seq<MembershipData>)
    ensures NoSessionsBadge(data) == |ApplyQuickFilter("no-sessions", data)|
        <==> forall m :: m in data ==> m.sessionsLeft >= 0
  {
    SessionsTrichotomy(data);
    FilterEmpty(NegativeSessions, data);
  }

  /** A quick-filter button: the token it selects, its caption and its badge count. */
  datatype Shortcut = Shortcut(key: string, caption: string, count: int)

  /** The status buttons and their badges, counted over the unfiltered records. */
  function StatusShortcuts(data: seq<MembershipData>): seq<Shortcut>
  {
    [Shortcut("all", "All Members", |data|),
     Shortcut("active", "Active", ActiveCount(data)),
     Shortcut("expired", "Expired", ExpiredCount(data)),
     Shortcut("sessions", "With Sessions", WithSessionsCount(data)),
     Shortcut("no-sessions", "No Sessions", NoSessionsBadge(data))]
  }

  /** Each status button's badge is the number of records its token keeps
      when applied to the unfiltered records; for "No Sessions" this holds
      exactly when no session balance is negative. */
  lemma StatusShortcutsCount(data: seq<MembershipData>)
    ensures forall i :: 0 <= i < |StatusShortcuts(data)| && StatusShortcuts(data)[i].key != "no-sessions" ==>
              StatusShortcuts(data)[i].count == |ApplyQuickFilter(StatusShortcuts(data)[i].key, data)|
    ensures StatusShortcuts(data)[4].key == "no-sessions"
    ensures StatusShortcuts(data)[4].count == |ApplyQuickFilter("no-sessions", data)|
        <==> forall m :: m in data ==> m.sessionsLeft >= 0
  {
    NoSessionsBadgeMatchesFilter(data);
  }

  /** The "Total Sessions" metric, the sum over the unfiltered records, is 0
      on no data, adds over concatenation, and — when no balance is
      negative — is carried entirely by the records the `sessions` quick
      filter keeps. */
  lemma TotalSessionsProperties(data: seq<MembershipData>, more: seq<MembershipData>)
    ensures SessionsSum([]) == 0
    ensures SessionsSum(data + more) == SessionsSum(data) + SessionsSum(more)
    ensures (forall m :: m in data ==> m.sessionsLeft >= 0)
            ==> SessionsSum(data) == SessionsSum(ApplyQuickFilter("sessions", data))
  {
    SessionsSumAppend(data, more);
    SessionsSumSplit(data);
    FilterEmpty(NegativeSessions, data);
  }

  // ---------------------------------------------------------------------
  // Facet lists
  // ---------------------------------------------------------------------

  function Locations(data: seq<MembershipData>): (r: seq<string>)
    ensures |r| == |data| && forall i :: 0 <= i < |data| ==> r[i] == data[i].location
  {
    seq(|data|, i requires 0 <= i < |data| => data[i].location)
  }

  function MembershipNames(data: seq<MembershipData>): (r: seq<string>)
    ensures |r| == |data| && forall i :: 0 <= i < |data| ==> r[i] == data[i].membershipName
  {
    seq(|data|, i requires 0 <= i < |data| => data[i].membershipName)
  }

  /** `[...new Set(membershipData.map(m => m.location).filter(l => l && l !== '-'))]`. */
  function AvailableLocations(data: seq<MembershipData>): seq<string>
  {
    Dedup(Filter(IsPlace, Locations(data)))
  }

  /** `[...new Set(membershipData.map(m => m.membershipName))]`. */
  function AvailableMembershipTypes(data: seq<MembershipData>): seq<string>
  {
    Dedup(MembershipNames(data))
  }

  /** The location facet has no duplicates, never offers `''` or `'-'`, offers
      every other location of the data and nothing else, in first-seen order. */
  lemma AvailableLocationsSpec(data: seq<MembershipData>)
    ensures Distinct(AvailableLocations(data))
    ensures "" !in AvailableLocations(data) && "-" !in AvailableLocations(data)
    ensures forall m :: m in data && IsPlace(m.location) ==> m.location in AvailableLocations(data)
    ensures forall l :: l in AvailableLocations(data) ==> l in Locations(data)
    ensures FirstSeen(AvailableLocations(data), Locations(data))
  {
    var ls := Locations(data);
    var places := Filter(IsPlace, ls);
    var r := AvailableLocations(data);
    forall l | l in r ensures IsPlace(l) && l in ls {
      FilterMember(IsPlace, ls, l);
    }
    forall m | m in data && IsPlace(m.location) ensures m.location in r {
      var i :| 0 <= i < |data| && data[i] == m;
      assert ls[i] == m.location;
      FilterMember(IsPlace, ls, m.location);
      var j :| 0 <= j < |places| && places[j] == m.location;
    }
    DedupFirstSeen(places);
    FirstSeenThroughFilter(r, IsPlace, ls);
  }

  /** The membership-type facet is the first-seen distinct list of all membership names. */
  lemma AvailableMembershipTypesSpec(data: seq<MembershipData>)
    ensures Distinct(AvailableMembershipTypes(data))
    ensures forall m :: m in data ==> m.membershipName in AvailableMembershipTypes(data)
    ensures forall t :: t in AvailableMembershipTypes(data) ==> t in MembershipNames(data)
    ensures FirstSeen(AvailableMembershipTypes(data), MembershipNames(data))
  {
    var names := MembershipNames(data);
    forall m | m in data ensures m.membershipName in AvailableMembershipTypes(data) {
      var i :| 0 <= i < |data| && data[i] == m;
      assert names[i] == m.membershipName;
    }
    DedupFirstSeen(names);
  }
}

=== FILE: membership.dfy ===
/** The record and filter types of the dashboard (`MembershipData`,
    `FilterOptions`) and the session total shared by the page and the charts. */
module Membership {
  import opened Seqs

  datatype Option<T> = None | Some(value: T)

  /** A membership's status: exactly one of two values. */
  datatype Status = Active | Expired

  /** The string the status is stored and compared as. */
  function StatusName(s: Status): string
  {
    match s
    case Active => "Active"
    case Expired => "Expired"
  }

  /** A date-valued field: its raw text, and what `new Date(text)` yields — a
      millisecond timestamp, or `None` for an invalid date (NaN), which fails
      every comparison. */
  datatype Date = Date(text: string, time: Option<int>)

  /** `new Date(a) < new Date(b)`. */
  predicate DateBefore(a: Date, b: Date)
  {
    a.time.Some? && b.time.Some? && a.time.value < b.time.value
  }

  /** The text of an empty date input; `new Date('')` is invalid. */
  const NoDate := Date("", None)

  datatype MembershipData = MembershipData(
    uniqueId: string,
    memberId: string,
    firstName: string,
    lastName: string,
    email: string,
    membershipName: string,
    endDate: Date,
    location: string,
    sessionsLeft: int,
    itemId: string,
    orderDate: Date,
    soldBy: string,
    membershipId: string,
    frozen: string,
    paid: string,
    status: Status)

  datatype DateRange = DateRange(start: Date, end: Date)

  datatype SessionsRange = SessionsRange(min: int, max: int)

  datatype FilterOptions = FilterOptions(
    status: seq<string>,
    locations: seq<string>,
    membershipTypes: seq<string>,
    dateRange: DateRange,
    sessionsRange: SessionsRange)

  /** The filter the page starts with and that "Clear" restores. */
  function DefaultFilters(): FilterOptions
  {
    FilterOptions([], [], [], DateRange(NoDate, NoDate), SessionsRange(0, 100))
  }

  predicate IsActive(m: MembershipData) { m.status == Active }

  predicate IsExpired(m: MembershipData) { m.status == Expired }

  predicate HasSessions(m: MembershipData) { m.sessionsLeft > 0 }

  predicate NoSessions(m: MembershipData) { m.sessionsLeft == 0 }

  predicate NegativeSessions(m: MembershipData) { m.sessionsLeft < 0 }

  /** A location worth listing or charting: truthy and not the `-` placeholder. */
  predicate IsPlace(l: string) { l != "" && l != "-" }

  function ActiveCount(data: seq<MembershipData>): nat { |Filter(IsActive, data)| }

  function ExpiredCount(data: seq<MembershipData>): nat { |Filter(IsExpired, data)| }

  /** `data.filter(m => m.sessionsLeft > 0).length`. */
  function WithSessionsCount(data: seq<MembershipData>): nat { |Filter(HasSessions, data)| }

  /** `data.filter(m => m.sessionsLeft === 0).length`. */
  function NoSessionsCount(data: seq<MembershipData>): nat { |Filter(NoSessions, data)| }

  /** `data.reduce((sum, m) => sum + m.sessionsLeft, 0)`. */
  function SessionsSum(data: seq<MembershipData>): int
  {
    if data == [] then 0
    else SessionsSum(data[..|data| - 1]) + data[|data| - 1].sessionsLeft
  }

  lemma {:induction false} SessionsSumAppend(a: seq<MembershipData>, b: seq<MembershipData>)
    ensures SessionsSum(a + b) == SessionsSum(a) + SessionsSum(b)
  {
    if b == [] {
      assert a + b == a;
    } else {
      SessionsSumAppend(a, b[..|b| - 1]);
      assert (a + b)[..|a + b| - 1] == a + b[..|b| - 1];
    }
  }

  /** Records with no sessions left add nothing to the sum: the sum over the
      whole collection equals the sum over the records with `sessionsLeft > 0`
      plus the sum over those with a negative balance. */
  lemma {:induction false} SessionsSumSplit(data: seq<MembershipData>)
    ensures SessionsSum(data)
         == SessionsSum(Filter(HasSessions, data)) + SessionsSum(Filter(NegativeSessions, data))
  {
    if data != [] {
      var d', m := data[..|data| - 1], data[|data| - 1];
      SessionsSumSplit(d');
      SessionsSumAppend(Filter(HasSessions, d'), if HasSessions(m) then [m] else []);
      SessionsSumAppend(Filter(NegativeSessions, d'), if NegativeSessions(m) then [m] else []);
      assert SessionsSum([m]) == SessionsSum([m][..0]) + m.sessionsLeft;
    }
  }

  /** Every record has `sessionsLeft > 0`, `== 0` or `< 0`: the three counts add up. */
  lemma {:induction false} SessionsTrichotomy(data: seq<MembershipData>)
    ensures |Filter(HasSessions, data)| + |Filter(NoSessions, data)|
            + |Filter(NegativeSessions, data)| == |data|
  {
    if data != [] {
      SessionsTrichotomy(data[..|data| - 1]);
    }
  }
}

=== FILE: membership_chart.dfy ===
/** The analytics panel: three tallies built by folding over the records
    (by status, by membership type, by location), the chart series derived
    from them, and the sessions overview (two counts, the total and the
    rounded average). */
module MembershipChart {
  import opened Seqs
  import opened Membership
  import IndexPage

  // ---------------------------------------------------------------------
  // Tallies
  // ---------------------------------------------------------------------

  /** One key of a tally with its count: a `{ name, value }` or `{ name, count }` point. */
  datatype Entry = Entry(name: string, count: int)

  function Names(h: seq<Entry>): (r: seq<string>)
    ensures |r| == |h| && forall i :: 0 <= i < |h| ==> r[i] == h[i].name
  {
    seq(|h|, i requires 0 <= i < |h| => h[i].name)
  }

  /** The count recorded for `x`: that of the first entry named `x`, or 0. */
  function CountOf(h: seq<Entry>, x: string): int
  {
    if h == [] then 0 else if h[0].name == x then h[0].count else CountOf(h[1..], x)
  }

  function TotalCount(h: seq<Entry>): int
  {
    if h == [] then 0 else h[0].count + TotalCount(h[1..])
  }

  /** `acc[k] = (acc[k] || 0) + 1` on an insertion-ordered record, seen as
      its list of entries: the entry for `k` goes up by one, or `k: 1` is
      appended after all existing keys. */
  function Bump(h: seq<Entry>, k: string): seq<Entry>
  {
    if h == [] then [Entry(k, 1)]
    else if h[0].name == k then [Entry(k, h[0].count + 1)] + h[1..]
    else [h[0]] + Bump(h[1..], k)
  }

  /** The entries of the record a `reduce` builds by bumping each key in turn. */
  function Tally(keys: seq<string>): seq<Entry>
  {
    if keys == [] then [] else Bump(Tally(keys[..|keys| - 1]), keys[|keys| - 1])
  }

  lemma {:induction false} BumpNames(h: seq<Entry>, k: string)
    ensures Names(Bump(h, k)) == if k in Names(h) then Names(h) else Names(h) + [k]
  {
    if h != [] {
      var b := Bump(h, k);
      assert Names(h) == [h[0].name] + Names(h[1..]);
      if h[0].name != k {
        BumpNames(h[1..], k);
        assert b == [h[0]] + Bump(h[1..], k);
        assert Names(b) == [h[0].name] + Names(Bump(h[1..], k));
        assert (k in Names(h)) == (k in Names(h[1..]));
      } else {
        assert b == [Entry(k, h[0].count + 1)] + h[1..];
        assert Names(b) == [k] + Names(h[1..]);
        assert k in Names(h);
      }
    }
  }

  lemma {:induction false} BumpCount(h: seq<Entry>, k: string, x: string)
    ensures CountOf(Bump(h, k), x) == CountOf(h, x) + (if x == k then 1 else 0)
  {
    if h != [] && h[0].name != k {
      BumpCount(h[1..], k, x);
      assert Bump(h, k)[1..] == Bump(h[1..], k);
    } else if h != [] {
      assert Bump(h, k)[1..] == h[1..];
    }
  }

  lemma {:induction false} BumpTotal(h: seq<Entry>, k: string)
    ensures TotalCount(Bump(h, k)) == TotalCount(h) + 1
  {
    if h == [] {
      assert Bump(h, k)[1..] == [];
    } else if h[0].name != k {
      BumpTotal(h[1..], k);
      assert Bump(h, k)[1..] == Bump(h[1..], k);
    } else {
      assert Bump(h, k)[1..] == h[1..];
    }
  }

  lemma {:induction false} BumpPositive(h: seq<Entry>, k: string)
    requires forall i :: 0 <= i < |h| ==> h[i].count > 0
    ensures forall i :: 0 <= i < |Bump(h, k)| ==> Bump(h, k)[i].count > 0
  {
    if h != [] && h[0].name != k {
      BumpPositive(h[1..], k);
      assert Bump(h, k)[1..] == Bump(h[1..], k);
    }
  }

  /** A tally lists every key once, in the order keys are first seen; each
      key's count is its number of occurrences; the counts are positive and
      add up to the number of keys. */
  lemma {:induction false} TallySpec(keys: seq<string>)
    ensures Names(Tally(keys)) == Dedup(keys)
    ensures forall x :: CountOf(Tally(keys), x) == Occurrences(keys, x)
    ensures TotalCount(Tally(keys)) == |keys|
    ensures forall i :: 0 <= i < |Tally(keys)| ==> Tally(keys)[i].count > 0
  {
    if keys != [] {
      var keys', k := keys[..|keys| - 1], keys[|keys| - 1];
      var t' := Tally(keys');
      TallySpec(keys');
      BumpNames(t', k);
      BumpTotal(t', k);
      BumpPositive(t', k);
      forall x ensures CountOf(Tally(keys), x) == Occurrences(keys, x) {
        BumpCount(t', k, x);
      }
    }
  }

  /** The keys a `reduce` visits: `key(m)` for each record `m` that passes `keep`, in order. */
  function KeysOf(data: seq<MembershipData>, key: MembershipData -> string,
                  keep: MembershipData -> bool): seq<string>
  {
    if data == [] then []
    else
      var m := data[|data| - 1];
      KeysOf(data[..|data| - 1], key, keep) + (if keep(m) then [key(m)] else [])
  }

  /** The occurrences of `x` among the visited keys are the records that pass
      `keep` and have key `x`. */
  lemma {:induction false} KeysOfOccurrences(data: seq<MembershipData>, key: MembershipData -> string,
                                            keep: MembershipData -> bool, x: string,
                                            sel: MembershipData -> bool)
    requires forall m :: sel(m) == (keep(m) && key(m) == x)
    ensures Occurrences(KeysOf(data, key, keep), x) == |Filter(sel, data)|
  {
    if data != [] {
      var data', m := data[..|data| - 1], data[|data| - 1];
      var ks' := KeysOf(data', key, keep);
      KeysOfOccurrences(data', key, keep, x, sel);
      if keep(m) {
        assert (ks' + [key(m)])[..|ks'|] == ks';
      } else {
        assert ks' + [] == ks';
      }
    }
  }

  lemma {:induction false} KeysOfLength(data: seq<MembershipData>, key: MembershipData -> string,
                                       keep: MembershipData -> bool)
    ensures |KeysOf(data, key, keep)| == |Filter(keep, data)|
  {
    if data != [] {
      KeysOfLength(data[..|data| - 1], key, keep);
    }
  }

  /** Entries of an insertion-ordered record: the keys in insertion order, each with its value. */
  function Entries(order: seq<string>, counts: map<string, int>): seq<Entry>
    requires forall i :: 0 <= i < |order| ==> order[i] in counts
  {
    if order == [] then [] else [Entry(order[0], counts[order[0]])] + Entries(order[1..], counts)
  }

  lemma {:induction false} EntriesNames(order: seq<string>, counts: map<string, int>)
    requires forall i :: 0 <= i < |order| ==> order[i] in counts
    ensures Names(Entries(order, counts)) == order
  {
    if order != [] {
      EntriesNames(order[1..], counts);
      assert Names(Entries(order, counts)) == [order[0]] + Names(Entries(order[1..], counts));
    }
  }

  lemma {:induction false} EntriesFrame(order: seq<string>, c1: map<string, int>, c2: map<string, int>)
    requires forall i :: 0 <= i < |order| ==> order[i] in c1 && order[i] in c2 && c1[order[i]] == c2[order[i]]
    ensures Entries(order, c1) == Entries(order, c2)
  {
    if order != [] {
      EntriesFrame(order[1..], c1, c2);
    }
  }

  /** Incrementing a present key bumps its entry in place. */
  lemma {:induction false} EntriesBump(order: seq<string>, counts: map<string, int>, k: string)
    requires forall i :: 0 <= i < |order| ==> order[i] in counts
    requires Distinct(order) && k in order
    ensures Entries(order, counts[k := counts[k] + 1]) == Bump(Entries(order, counts), k)
  {
    var counts' := counts[k := counts[k] + 1];
    if order[0] == k {
      assert k !in order[1..];
      EntriesFrame(order[1..], counts', counts);
    } else {
      assert Distinct(order[1..]);
      EntriesBump(order[1..], counts, k);
    }
  }

  /** Setting a new key to 1 appends its entry at the end. */
  lemma {:induction false} EntriesAppend(order: seq<string>, counts: map<string, int>, k: string)
    requires forall i :: 0 <= i < |order| ==> order[i] in counts
    requires k !in order
    ensures Entries(order + [k], counts[k := 1]) == Entries(order, counts) + [Entry(k, 1)]
  {
    if order != [] {
      assert (order + [k])[1..] == order[1..] + [k];
      EntriesAppend(order[1..], counts, k);
    }
  }

  lemma {:induction false} BumpAbsent(h: seq<Entry>, k: string)
    requires k !in Names(h)
    ensures Bump(h, k) == h + [Entry(k, 1)]
  {
    if h != [] {
      assert h[0].name == Names(h)[0];
      assert Names(h[1..]) == Names(h)[1..];
      BumpAbsent(h[1..], k);
    }
  }

  lemma TallyStep(data: seq<MembershipData>, i: nat, key: MembershipData -> string,
                  keep: MembershipData -> bool)
    requires i < |data|
    ensures Tally(KeysOf(data[..i + 1], key, keep))
         == if keep(data[i]) then Bump(Tally(KeysOf(data[..i], key, keep)), key(data[i]))
            else Tally(KeysOf(data[..i], key, keep))
  {
    assert data[..i + 1][..i] == data[..i];
    var ks := KeysOf(data[..i], key, keep);
    if keep(data[i]) {
      assert (ks + [key(data[i])])[..|ks|] == ks;
    } else {
      assert ks + [] == ks;
    }
  }

  /** `acc[k] = (acc[k] || 0) + 1` for a key already in the record: the
      record keeps its keys and its entries are bumped at `k`. */
  lemma RecordBumpPresent(order: seq<string>, counts: map<string, int>, k: string)
    requires Distinct(order)
    requires forall x :: x in counts <==> x in order
    requires k in counts
    ensures forall x :: x in counts[k := counts[k] + 1] <==> x in order
    ensures Entries(order, counts[k := counts[k] + 1]) == Bump(Entries(order, counts), k)
  {
    EntriesBump(order, counts, k);
  }

  /** The same for a new key: it is appended to the key order with count 1. */
  lemma RecordBumpNew(order: seq<string>, counts: map<string, int>, k: string)
    requires Distinct(order)
    requires forall x :: x in counts <==> x in order
    requires k !in counts
    ensures Distinct(order + [k])
    ensures forall x :: x in counts[k := 1] <==> x in order + [k]
    ensures Entries(order + [k], counts[k := 1]) == Bump(Entries(order, counts), k)
  {
    EntriesNames(order, counts);
    EntriesAppend(order, counts, k);
    BumpAbsent(Entries(order, counts), k);
    assert forall i, j :: 0 <= i < j < |order| + 1 ==> (order + [k])[i] != (order + [k])[j];
  }

  /** One `reduce` into a record followed by `Object.entries`: the result is
      the tally of the keys of the included records. */
  method CountBy(data: seq<MembershipData>, key: MembershipData -> string,
                 keep: MembershipData -> bool) returns (h: seq<Entry>)
    ensures h == Tally(KeysOf(data, key, keep))
  {
    var order: seq<string> := [];
    var counts: map<string, int> := map[];
    var i := 0;
    while i < |data|
      invariant 0 <= i <= |data|
      invariant Distinct(order)
      invariant forall x :: x in counts <==> x in order
      invariant Entries(order, counts) == Tally(KeysOf(data[..i], key, keep))
    {
      var m := data[i];
      TallyStep(data, i, key, keep);
      if keep(m) {
        var k := key(m);
        if k in counts {
          RecordBumpPresent(order, counts, k);
          counts := counts[k := counts[k] + 1];
        } else {
          RecordBumpNew(order, counts, k);
          order := order + [k];
          counts := counts[k := 1];
        }
      }
      i := i + 1;
    }
    assert data[..i] == data;
    h := Entries(order, counts);
  }

  // ---------------------------------------------------------------------
  // The three tallies
  // ---------------------------------------------------------------------

  function StatusKey(m: MembershipData): string { StatusName(m.status) }

  function TypeKey(m: MembershipData): string { m.membershipName }

  function LocationKey(m: MembershipData): string { m.location }

  predicate Everyone(m: MembershipData) { true }

  /** `member.location && member.location !== '-'`. */
  predicate HasPlace(m: MembershipData) { IsPlace(m.location) }

  /** `statusData`, as the `pieData` entries. */
  function StatusTally(data: seq<MembershipData>): seq<Entry>
  {
    Tally(KeysOf(data, StatusKey, Everyone))
  }

  /** `membershipTypeData`, as entries. */
  function TypeTally(data: seq<MembershipData>): seq<Entry>
  {
    Tally(KeysOf(data, TypeKey, Everyone))
  }

  /** `locationData`, as entries. */
  function LocationTally(data: seq<MembershipData>): seq<Entry>
  {
    Tally(KeysOf(data, LocationKey, HasPlace))
  }

  lemma {:induction false} KeysOfTypes(data: seq<MembershipData>)
    ensures KeysOf(data, TypeKey, Everyone) == IndexPage.MembershipNames(data)
  {
    if data != [] {
      KeysOfTypes(data[..|data| - 1]);
    }
  }

  lemma {:induction false} KeysOfLocations(data: seq<MembershipData>)
    ensures KeysOf(data, LocationKey, HasPlace) == Filter(IsPlace, IndexPage.Locations(data))
  {
    if data != [] {
      var data' := data[..|data| - 1];
      KeysOfLocations(data');
      assert IndexPage.Locations(data)[..|data| - 1] == IndexPage.Locations(data');
    }
  }

  /** The pie has one slice per status present, `Active` counting the active
      records and `Expired` the expired ones; the slices are positive and
      cover every record. */
  lemma StatusTallySpec(data: seq<MembershipData>)
    ensures Distinct(Names(StatusTally(data)))
    ensures forall i :: 0 <= i < |StatusTally(data)| ==>
              (StatusTally(data)[i].name == "Active" || StatusTally(data)[i].name == "Expired")
              && StatusTally(data)[i].count > 0
    ensures CountOf(StatusTally(data), "Active") == ActiveCount(data)
    ensures CountOf(StatusTally(data), "Expired") == ExpiredCount(data)
    ensures TotalCount(StatusTally(data)) == |data|
  {
    var ks := KeysOf(data, StatusKey, Everyone);
    TallySpec(ks);
    KeysOfLength(data, StatusKey, Everyone);
    FilterKeepsAll(Everyone, data);
    StatusCounts(data);
    StatusNames(data);
  }

  lemma StatusCounts(data: seq<MembershipData>)
    ensures CountOf(StatusTally(data), "Active") == ActiveCount(data)
    ensures CountOf(StatusTally(data), "Expired") == ExpiredCount(data)
  {
    forall m ensures IsActive(m) == (StatusKey(m) == "Active") && IsExpired(m) == (StatusKey(m) == "Expired") {
      assert StatusKey(m) == StatusName(m.status);
    }
    StatusSlice(data, "Active", IsActive);
    StatusSlice(data, "Expired", IsExpired);
  }

  /** The slice named `name` counts the records whose status is called `name`. */
  lemma StatusSlice(data: seq<MembershipData>, name: string, sel: MembershipData -> bool)
    requires forall m :: sel(m) == (StatusKey(m) == name)
    ensures CountOf(StatusTally(data), name) == |Filter(sel, data)|
  {
    var ks := KeysOf(data, StatusKey, Everyone);
    assert StatusTally(data) == Tally(ks);
    TallySpec(ks);
    assert CountOf(Tally(ks), name) == Occurrences(ks, name);
    KeysOfOccurrences(data, StatusKey, Everyone, name, sel);
  }

  lemma StatusNames(data: seq<MembershipData>)
    ensures forall i :: 0 <= i < |StatusTally(data)| ==>
              StatusTally(data)[i].name == "Active" || StatusTally(data)[i].name == "Expired"
  {
    var ks := KeysOf(data, StatusKey, Everyone);
    var t := StatusTally(data);
    TallySpec(ks);
    KeysOfStatuses(data);
    forall i | 0 <= i < |t| ensures t[i].name == "Active" || t[i].name == "Expired" {
      assert Names(t)[i] == t[i].name;
      assert Dedup(ks)[i] in ks;
    }
  }

  lemma {:induction false} KeysOfStatuses(data: seq<MembershipData>)
    ensures forall x :: x in KeysOf(data, StatusKey, Everyone) ==> x == "Active" || x == "Expired"
  {
    if data != [] {
      KeysOfStatuses(data[..|data| - 1]);
    }
  }

  /** The type tally lists the membership types in the same first-seen order
      as the type facet of the filter editor, counts each type's records,
      and covers every record. */
  lemma TypeTallySpec(data: seq<MembershipData>)
    ensures Names(TypeTally(data)) == IndexPage.AvailableMembershipTypes(data)
    ensures forall x :: CountOf(TypeTally(data), x)
                        == |Filter((m: MembershipData) => m.membershipName == x, data)|
    ensures TotalCount(TypeTally(data)) == |data|
  {
    var ks := KeysOf(data, TypeKey, Everyone);
    TallySpec(ks);
    KeysOfTypes(data);
    KeysOfLength(data, TypeKey, Everyone);
    FilterKeepsAll(Everyone, data);
    forall x ensures CountOf(TypeTally(data), x)
                     == |Filter((m: MembershipData) => m.membershipName == x, data)| {
      KeysOfOccurrences(data, TypeKey, Everyone, x, (m: MembershipData) => m.membershipName == x);
    }
  }

  /** The location tally lists the same locations, in the same order, as the
      location facet (so never `''` or `'-'`), counts each location's
      records, and covers exactly the records that have a location. */
  lemma LocationTallySpec(data: seq<MembershipData>)
    ensures Names(LocationTally(data)) == IndexPage.AvailableLocations(data)
    ensures "" !in Names(LocationTally(data)) && "-" !in Names(LocationTally(data))
    ensures forall x :: IsPlace(x) ==>
              CountOf(LocationTally(data), x) == |Filter((m: MembershipData) => m.location == x, data)|
    ensures TotalCount(LocationTally(data)) == |Filter(HasPlace, data)|
  {
    var ks := KeysOf(data, LocationKey, HasPlace);
    TallySpec(ks);
    KeysOfLocations(data);
    KeysOfLength(data, LocationKey, HasPlace);
    IndexPage.AvailableLocationsSpec(data);
    forall x | IsPlace(x) ensures CountOf(LocationTally(data), x)
                                  == |Filter((m: MembershipData) => m.location == x, data)| {
      KeysOfOccurrences(data, LocationKey, HasPlace, x, (m: MembershipData) => m.location == x);
    }
  }

  // ---------------------------------------------------------------------
  // Chart series
  // ---------------------------------------------------------------------

  /** `name.slice(0, 20) + '...'`: at most the first twenty characters, then
      an ellipsis that is added even when nothing was cut. */
  function BarLabel(name: string): (r: string)
    ensures 3 <= |r| <= 23 && r[|r| - 3..] == "..."
    ensures r[..|r| - 3] <= name
    ensures |name| <= 20 ==> r == name + "..."
    ensures |name| > 20 ==> |r| == 23
  {
    name[..Min(20, |name|)] + "..."
  }

  /** `barData`: every type entry relabelled, then the first eight. */
  function BarData(h: seq<Entry>): (r: seq<Entry>)
    ensures |r| == Min(8, |h|)
    ensures forall i :: 0 <= i < |r| ==> r[i] == Entry(BarLabel(h[i].name), h[i].count)
  {
    var labelled := seq(|h|, i requires 0 <= i < |h| => Entry(BarLabel(h[i].name), h[i].count));
    labelled[..Min(8, |labelled|)]
  }

  /** `locationBarData`: the first five location entries. */
  function LocationBarData(h: seq<Entry>): (r: seq<Entry>)
    ensures |r| <= 5 && r <= h
    ensures |h| >= 5 ==> |r| == 5
    ensures |h| < 5 ==> r == h
  {
    h[..Min(5, |h|)]
  }

  /** The series the panel draws, each built by one pass over the records. */
  method ChartSeries(data: seq<MembershipData>) returns (pie: seq<Entry>, bars: seq<Entry>, locationBars: seq<Entry>)
    ensures pie == StatusTally(data)
    ensures bars == BarData(TypeTally(data))
    ensures locationBars == LocationBarData(LocationTally(data))
  {
    pie := CountBy(data, StatusKey, Everyone);
    var types := CountBy(data, TypeKey, Everyone);
    bars := BarData(types);
    var locations := CountBy(data, LocationKey, HasPlace);
    locationBars := LocationBarData(locations);
  }

  /** The bar chart shows the first `min(8, #types)` membership types in
      first-seen order, each under its shortened label and with its record count. */
  lemma BarDataSpec(data: seq<MembershipData>)
    ensures |BarData(TypeTally(data))| == Min(8, |IndexPage.AvailableMembershipTypes(data)|)
    ensures forall i :: 0 <= i < |BarData(TypeTally(data))| ==>
              var t := IndexPage.AvailableMembershipTypes(data)[i];
              BarData(TypeTally(data))[i]
              == Entry(BarLabel(t), |Filter((m: MembershipData) => m.membershipName == t, data)|)
  {
    var h := TypeTally(data);
    TypeTallySpec(data);
    TallySpec(KeysOf(data, TypeKey, Everyone));
    forall i | 0 <= i < |BarData(h)|
      ensures var t := IndexPage.AvailableMembershipTypes(data)[i];
              h[i].count == |Filter((m: MembershipData) => m.membershipName == t, data)|
    {
      assert Names(h)[i] == h[i].name;
      assert Distinct(Names(h));
      CountOfDistinct(h, i);
    }
  }

  /** In a list of distinct names, the count of the `i`-th name is its own entry's. */
  lemma {:induction false} CountOfDistinct(h: seq<Entry>, i: nat)
    requires i < |h| && Distinct(Names(h))
    ensures CountOf(h, h[i].name) == h[i].count
  {
    if i > 0 {
      assert Names(h)[0] != Names(h)[i];
      assert Names(h[1..]) == Names(h)[1..];
      CountOfDistinct(h[1..], i - 1);
    }
  }

  // ---------------------------------------------------------------------
  // Sessions overview
  // ---------------------------------------------------------------------

  /** "With Sessions" and "No Sessions" never exceed the record count
      together, and add up to it exactly when no balance is negative. */
  lemma SessionCardsAddUp(data: seq<MembershipData>)
    ensures WithSessionsCount(data) + NoSessionsCount(data) <= |data|
    ensures WithSessionsCount(data) + NoSessionsCount(data) == |data|
        <==> forall m :: m in data ==> m.sessionsLeft >= 0
  {
    SessionsTrichotomy(data);
    FilterEmpty(NegativeSessions, data);
  }

  /** "Avg Sessions": `Math.round(total / data.length)`, i.e. the mean rounded
      to the nearest integer with halves rounded up. Undefined (NaN) on no
      records. */
  function AverageSessions(data: seq<MembershipData>): (r: int)
    requires |data| > 0
    ensures 2 * |data| * r - |data| <= 2 * SessionsSum(data) < 2 * |data| * r + |data|
  {
    var n, s := |data|, SessionsSum(data);
    var r := (2 * s + n) / (2 * n);
    assert 2 * s + n == 2 * n * r + (2 * s + n) % (2 * n);
    r
  }

  lemma {:induction false} SessionsSumBounds(data: seq<MembershipData>, lo: int, hi: int)
    requires forall i :: 0 <= i < |data| ==> lo <= data[i].sessionsLeft <= hi
    ensures |data| * lo <= SessionsSum(data) <= |data| * hi
  {
    if data != [] {
      var n := |data| - 1;
      SessionsSumBounds(data[..n], lo, hi);
      MulSucc(n, lo);
      MulSucc(n, hi);
    }
  }

  lemma MulSucc(n: int, x: int)
    ensures (n + 1) * x == n * x + x
  {
  }

  /** The rounded average lies between the smallest and the largest balance. */
  lemma AverageWithinBounds(data: seq<MembershipData>, lo: int, hi: int)
    requires |data| > 0
    requires forall i :: 0 <= i < |data| ==> lo <= data[i].sessionsLeft <= hi
    ensures lo <= AverageSessions(data) <= hi
  {
    SessionsSumBounds(data, lo, hi);
    RoundedMeanBounds(|data|, SessionsSum(data), AverageSessions(data), lo, hi);
  }

  /** A sum of `n` values between `lo` and `hi`, divided by `n` and rounded
      to the nearest integer, stays between `lo` and `hi`. */
  lemma RoundedMeanBounds(n: int, s: int, r: int, lo: int, hi: int)
    requires n > 0
    requires n * lo <= s <= n * hi
    requires 2 * n * r - n <= 2 * s < 2 * n * r + n
    ensures lo <= r <= hi
  {
    assert 2 * n * (r - hi) == 2 * n * r - 2 * (n * hi);
    HalfBound(n, r - hi);
    assert 2 * n * (lo - r) == 2 * (n * lo) - 2 * n * r;
    HalfBound(n, lo - r);
  }

  /** A whole number within half a step of 0 (from below) is at most 0. */
  lemma HalfBound(n: int, d: int)
    requires n > 0 && 2 * n * d <= n
    ensures d <= 0
  {
  }
}

=== FILE: quick_filters.dfy ===
/** The quick-filter panel: the status buttons, three period buttons counted
    against the current time, and up to four location buttons. The page in
    src/pages/Index.tsx does not mount this panel; the lemmas below state
    what `applyQuickFilter` would do with its tokens: only the status tokens
    narrow the records, the others select all of them. */
module QuickFilters {
  import opened Seqs
  import opened Membership
  import opened IndexPage

  /** Milliseconds in a day: `24 * 60 * 60 * 1000`. */
  const DayMs: int := 86400000

  // ---------------------------------------------------------------------
  // Period buttons
  // ---------------------------------------------------------------------

  /** `new Date(text) >= new Date(t)`; an invalid date compares as false. */
  predicate AtOrAfter(d: Date, t: int)
  {
    d.time.Some? && d.time.value >= t
  }

  /** Ordered within the last thirty days of `now` (or later). */
  predicate IsRecent(now: int, m: MembershipData)
  {
    AtOrAfter(m.orderDate, now - 30 * DayMs)
  }

  /** Ordered within the last seven days of `now` (or later). */
  predicate IsWeekly(now: int, m: MembershipData)
  {
    AtOrAfter(m.orderDate, now - 7 * DayMs)
  }

  /** Ending between `now` and thirty days later, both ends included. */
  predicate IsExpiring(now: int, m: MembershipData)
  {
    m.endDate.time.Some? && now <= m.endDate.time.value && m.endDate.time.value <= now + 30 * DayMs
  }

  function RecentCount(now: int, data: seq<MembershipData>): nat
  {
    |Filter((m: MembershipData) => IsRecent(now, m), data)|
  }

  function WeeklyCount(now: int, data: seq<MembershipData>): nat
  {
    |Filter((m: MembershipData) => IsWeekly(now, m), data)|
  }

  function ExpiringCount(now: int, data: seq<MembershipData>): nat
  {
    |Filter((m: MembershipData) => IsExpiring(now, m), data)|
  }

  function PeriodShortcuts(now: int, data: seq<MembershipData>): seq<Shortcut>
  {
    [Shortcut("recent", "Last 30 Days", RecentCount(now, data)),
     Shortcut("weekly", "This Week", WeeklyCount(now, data)),
     Shortcut("expiring", "Expiring Soon", ExpiringCount(now, data))]
  }

  /** Every order of the last week is an order of the last thirty days, so
      the "This Week" badge never exceeds the "Last 30 Days" badge; and no
      period badge exceeds the number of records. */
  lemma PeriodCountsOrdered(now: int, data: seq<MembershipData>)
    ensures forall m :: IsWeekly(now, m) ==> IsRecent(now, m)
    ensures WeeklyCount(now, data) <= RecentCount(now, data) <= |data|
    ensures ExpiringCount(now, data) <= |data|
  {
    FilterMonotone((m: MembershipData) => IsWeekly(now, m), (m: MembershipData) => IsRecent(now, m), data);
  }

  /** The expiry window includes both of its ends, excludes anything a
      millisecond outside them, and never counts an invalid end date. */
  lemma ExpiringWindow(now: int, m: MembershipData)
    ensures m.endDate.time == Some(now) ==> IsExpiring(now, m)
    ensures m.endDate.time == Some(now + 30 * DayMs) ==> IsExpiring(now, m)
    ensures m.endDate.time == Some(now - 1) ==> !IsExpiring(now, m)
    ensures m.endDate.time == Some(now + 30 * DayMs + 1) ==> !IsExpiring(now, m)
    ensures m.endDate.time.None? ==> !IsExpiring(now, m)
  {
  }

  /** `applyQuickFilter` has no case for the period tokens: given one of
      them it returns every record it is handed. */
  lemma PeriodTokensKeepAll(now: int, data: seq<MembershipData>)
    ensures forall i :: 0 <= i < |PeriodShortcuts(now, data)| ==>
              ApplyQuickFilter(PeriodShortcuts(now, data)[i].key, data) == data
  {
  }

  // ---------------------------------------------------------------------
  // Location buttons
  // ---------------------------------------------------------------------

  /** `s.split(',')[0]`: the text before the first comma, or all of `s`. */
  function BeforeComma(s: string): (r: string)
    ensures r <= s
    ensures ',' !in r
    ensures |r| < |s| ==> s[|r|] == ','
  {
    if s == [] || s[0] == ',' then [] else [s[0]] + BeforeComma(s[1..])
  }

  /** `location.split(',')[0] || location`: the part before the first comma,
      or the whole location when that part is empty. */
  function ShortcutLabel(location: string): (r: string)
    ensures r <= location
    ensures location != [] ==> r != []
    ensures ',' !in location ==> r == location
    ensures r != location ==> ',' !in r && location[|r|] == ','
    ensures BeforeComma(location) != [] ==> r == BeforeComma(location)
    ensures BeforeComma(location) == [] ==> r == location
  {
    var head := BeforeComma(location);
    if head != [] then head else location
  }

  function LocationCount(location: string, data: seq<MembershipData>): nat
  {
    |Filter((m: MembershipData) => m.location == location, data)|
  }

  /** One location button: token `location-<location>`. */
  function LocationShortcut(location: string, data: seq<MembershipData>): Shortcut
  {
    Shortcut("location-" + location, ShortcutLabel(location), LocationCount(location, data))
  }

  /** `availableLocations.slice(0, 4).map(...)`. */
  function LocationShortcuts(locations: seq<string>, data: seq<MembershipData>): (r: seq<Shortcut>)
    ensures |r| == if |locations| < 4 then |locations| else 4
    ensures forall i :: 0 <= i < |r| ==> r[i] == LocationShortcut(locations[i], data)
  {
    var n := if |locations| < 4 then |locations| else 4;
    seq(n, i requires 0 <= i < n => LocationShortcut(locations[i], data))
  }

  /** With the page's location facet as input: at most four buttons, for the
      first locations seen, with distinct tokens and non-zero badges; and
      `applyQuickFilter` returns its input unchanged for their tokens. */
  lemma LocationShortcutsSpec(data: seq<MembershipData>)
    ensures |LocationShortcuts(AvailableLocations(data), data)| <= 4
    ensures forall i :: 0 <= i < |LocationShortcuts(AvailableLocations(data), data)| ==>
              LocationShortcuts(AvailableLocations(data), data)[i].count > 0
    ensures forall i, j :: 0 <= i < j < |LocationShortcuts(AvailableLocations(data), data)| ==>
              LocationShortcuts(AvailableLocations(data), data)[i].key
              != LocationShortcuts(AvailableLocations(data), data)[j].key
    ensures forall i :: 0 <= i < |LocationShortcuts(AvailableLocations(data), data)| ==>
              ApplyQuickFilter(LocationShortcuts(AvailableLocations(data), data)[i].key, data) == data
  {
    var locs := AvailableLocations(data);
    AvailableLocationsSpec(data);
    LocationShortcutCounts(locs, data);
    LocationShortcutKeys(locs, data);
  }

  lemma LocationShortcutCounts(locs: seq<string>, data: seq<MembershipData>)
    requires forall l :: l in locs ==> l in Locations(data)
    ensures forall i :: 0 <= i < |LocationShortcuts(locs, data)| ==> LocationShortcuts(locs, data)[i].count > 0
  {
    var r := LocationShortcuts(locs, data);
    forall i | 0 <= i < |r| ensures r[i].count > 0 {
      assert locs[i] in locs;
      LocationPresent(locs[i], data);
    }
  }

  lemma LocationShortcutKeys(locs: seq<string>, data: seq<MembershipData>)
    requires Distinct(locs)
    ensures forall i, j :: 0 <= i < j < |LocationShortcuts(locs, data)| ==>
              LocationShortcuts(locs, data)[i].key != LocationShortcuts(locs, data)[j].key
    ensures forall i :: 0 <= i < |LocationShortcuts(locs, data)| ==>
              ApplyQuickFilter(LocationShortcuts(locs, data)[i].key, data) == data
  {
    var r := LocationShortcuts(locs, data);
    forall i, j | 0 <= i < j < |r| ensures r[i].key != r[j].key {
      LocationTokenInjective(locs[i], locs[j]);
    }
    forall i | 0 <= i < |r| ensures ApplyQuickFilter(r[i].key, data) == data {
      LocationTokenIgnored(locs[i], data);
    }
  }

  lemma LocationTokenInjective(a: string, b: string)
    requires a != b
    ensures "location-" + a != "location-" + b
  {
    var p := "location-";
    assert (p + a)[|p|..] == a && (p + b)[|p|..] == b;
  }

  lemma LocationTokenIgnored(location: string, data: seq<MembershipData>)
    ensures ApplyQuickFilter("location-" + location, data) == data
  {
    var k := "location-" + location;
    assert k[0] == 'l';
  }

  /** A location taken from the records has at least one record. */
  lemma LocationPresent(location: string, data: seq<MembershipData>)
    requires location in Locations(data)
    ensures LocationCount(location, data) > 0
  {
    var ls := Locations(data);
    var i :| 0 <= i < |ls| && ls[i] == location;
    assert data[i] in data && data[i].location == location;
    FilterEmpty((m: MembershipData) => m.location == location, data);
  }

  // ---------------------------------------------------------------------
  // The whole panel
  // ---------------------------------------------------------------------

  /** The three groups of buttons, in the order they are shown. */
  function Panel(now: int, data: seq<MembershipData>, locations: seq<string>): seq<seq<Shortcut>>
  {
    [StatusShortcuts(data), PeriodShortcuts(now, data), LocationShortcuts(locations, data)]
  }

  /** The status group repeats the page's status buttons: "All Members"
      counts every record, the next three count what their token keeps, and
      "No Sessions" counts the records without a positive balance. */
  lemma StatusGroupCounts(now: int, data: seq<MembershipData>, locations: seq<string>)
    ensures Panel(now, data, locations)[0] == StatusShortcuts(data)
    ensures Panel(now, data, locations)[0][0].count == |data|
    ensures forall i :: 1 <= i < 4 ==>
              Panel(now, data, locations)[0][i].count
              == |ApplyQuickFilter(Panel(now, data, locations)[0][i].key, data)|
    ensures Panel(now, data, locations)[0][4].count == |data| - WithSessionsCount(data)
  {
    StatusShortcutsCount(data);
  }

  /** Of all the panel's buttons, only "Active", "Expired", "With Sessions"
      and "No Sessions" narrow the records; every other button selects a
      token for which `applyQuickFilter` returns its input unchanged. */
  lemma PanelTokens(now: int, data: seq<MembershipData>, locations: seq<string>)
    ensures forall g, i :: 0 <= g < 3 && 0 <= i < |Panel(now, data, locations)[g]| ==>
              (IsFilteringToken(Panel(now, data, locations)[g][i].key) <==> g == 0 && 1 <= i)
  {
    var panel: seq<seq<Shortcut>> := Panel(now, data, locations);
    forall g: int, i: int | 0 <= g < 3 && 0 <= i < |panel[g]|
      ensures IsFilteringToken(panel[g][i].key) <==> g == 0 && 1 <= i
    {
      if g == 2 {
        assert panel[g][i].key == "location-" + locations[i];
        assert panel[g][i].key[0] == 'l';
      }
    }
  }
}

=== FILE: seqs.dfy ===
/** Sequence helpers shared by the dashboard modules: the order-preserving
    `Array.prototype.filter`, first-seen de-duplication (`[...new Set(xs)]`)
    and occurrence counting. */
module Seqs {

  function Min(a: int, b: int): int { if a <= b then a else b }

  function Max(a: int, b: int): int { if a >= b then a else b }

  /** `s.filter(p)`: the elements of `s` that satisfy `p`, in their original order. */
  function Filter<T>(p: T -> bool, s: seq<T>): (r: seq<T>)
    ensures |r| <= |s|
    ensures forall i :: 0 <= i < |r| ==> p(r[i])
  {
    if s == [] then []
    else Filter(p, s[..|s| - 1]) + (if p(s[|s| - 1]) then [s[|s| - 1]] else [])
  }

  /** The positions of `s` whose elements satisfy `p`, in increasing order. */
  function Kept<T>(p: T -> bool, s: seq<T>): seq<nat>
  {
    if s == [] then []
    else Kept(p, s[..|s| - 1]) + (if p(s[|s| - 1]) then [|s| - 1] else [])
  }

  /** `r` is the order-preserving subsequence of `s` made of exactly the
      elements that satisfy `p`: it picks the positions `Kept(p, s)`, which
      increase strictly and are precisely the positions where `p` holds. */
  ghost predicate Selects<T>(r: seq<T>, s: seq<T>, p: T -> bool)
  {
    var idx := Kept(p, s);
    |r| == |idx|
    && (forall k :: 0 <= k < |idx| ==> idx[k] < |s| && r[k] == s[idx[k]])
    && (forall k, l :: 0 <= k < l < |idx| ==> idx[k] < idx[l])
    && (forall i :: 0 <= i < |s| ==> (p(s[i]) <==> i in idx))
  }

  lemma {:induction false} FilterSelects<T>(p: T -> bool, s: seq<T>)
    ensures Selects(Filter(p, s), s, p)
  {
    KeptSpec(p, s);
    FilterKept(p, s);
  }

  /** The kept positions are in range, strictly increasing, and exactly those where `p` holds. */
  lemma {:induction false} KeptSpec<T>(p: T -> bool, s: seq<T>)
    ensures forall k :: 0 <= k < |Kept(p, s)| ==> Kept(p, s)[k] < |s|
    ensures forall k, l :: 0 <= k < l < |Kept(p, s)| ==> Kept(p, s)[k] < Kept(p, s)[l]
    ensures forall i :: 0 <= i < |s| ==> (p(s[i]) <==> i in Kept(p, s))
  {
    if s != [] {
      var n := |s| - 1;
      var s' := s[..n];
      KeptSpec(p, s');
      var idx' := Kept(p, s');
      assert Kept(p, s) == idx' + (if p(s[n]) then [n] else []);
      assert n !in idx';
      forall i | 0 <= i < n ensures (p(s[i]) <==> i in Kept(p, s)) {
        assert s'[i] == s[i];
      }
    }
  }

  /** The filtered sequence picks the elements at the kept positions. */
  lemma {:induction false} FilterKept<T>(p: T -> bool, s: seq<T>)
    ensures |Filter(p, s)| == |Kept(p, s)|
    ensures forall k :: 0 <= k < |Kept(p, s)| ==> Kept(p, s)[k] < |s| && Filter(p, s)[k] == s[Kept(p, s)[k]]
  {
    if s != [] {
      var n := |s| - 1;
      var s' := s[..n];
      FilterKept(p, s');
      var idx' := Kept(p, s');
      assert Kept(p, s) == idx' + (if p(s[n]) then [n] else []);
      var r', r := Filter(p, s'), Filter(p, s);
      assert r == r' + (if p(s[n]) then [s[n]] else []);
      forall k | 0 <= k < |Kept(p, s)| ensures Kept(p, s)[k] < |s| && r[k] == s[Kept(p, s)[k]] {
        if k < |idx'| {
          assert Kept(p, s)[k] == idx'[k] && r[k] == r'[k];
          assert s'[idx'[k]] == s[idx'[k]];
        } else {
          assert Kept(p, s)[k] == n && r[k] == s[n];
        }
      }
    }
  }

  lemma {:induction false} FilterAppend<T>(p: T -> bool, a: seq<T>, b: seq<T>)
    ensures Filter(p, a + b) == Filter(p, a) + Filter(p, b)
  {
    if b == [] {
      assert a + b == a;
    } else {
      var b' := b[..|b| - 1];
      FilterAppend(p, a, b');
      assert (a + b)[..|a + b| - 1] == a + b';
    }
  }

  lemma FilterSingleton<T>(p: T -> bool, x: T)
    ensures Filter(p, [x]) == if p(x) then [x] else []
  {
    assert [x][..0] == [];
  }

  /** Splicing `x` between `lo` and `hi` adds `x` to the filtered result at
      the end, provided nothing of `hi` survives the filter when `x` does. */
  lemma FilterSplice<T>(p: T -> bool, lo: seq<T>, x: T, hi: seq<T>)
    requires p(x) ==> Filter(p, hi) == []
    ensures Filter(p, lo + [x] + hi) == Filter(p, lo + hi) + (if p(x) then [x] else [])
  {
    FilterAppend(p, lo, [x]);
    FilterAppend(p, lo + [x], hi);
    FilterAppend(p, lo, hi);
    FilterSingleton(p, x);
    var a, b := Filter(p, lo), Filter(p, hi);
    if p(x) {
      assert Filter(p, lo + [x] + hi) == a + [x] + b;
      assert b == [] && a + [x] + b == a + b + [x];
    } else {
      assert Filter(p, lo + [x] + hi) == a + b;
      assert a + b + [] == a + b;
    }
  }

  /** An element is kept exactly when it occurs in the input and satisfies `p`. */
  lemma {:induction false} FilterMember<T>(p: T -> bool, s: seq<T>, x: T)
    ensures x in Filter(p, s) <==> x in s && p(x)
  {
    if s != [] {
      var s' := s[..|s| - 1];
      FilterMember(p, s', x);
      assert s == s' + [s[|s| - 1]];
    }
  }

  /** Filtering by a predicate that holds everywhere in `s` is the identity. */
  lemma {:induction false} FilterKeepsAll<T>(p: T -> bool, s: seq<T>)
    requires forall x :: x in s ==> p(x)
    ensures Filter(p, s) == s
  {
    if s != [] {
      var s' := s[..|s| - 1];
      assert s == s' + [s[|s| - 1]];
      FilterKeepsAll(p, s');
      assert p(s[|s| - 1]);
    }
  }

  /** Two predicates that agree on the elements of `s` filter it alike. */
  lemma {:induction false} FilterAgree<T>(p: T -> bool, q: T -> bool, s: seq<T>)
    requires forall x :: x in s ==> p(x) == q(x)
    ensures Filter(p, s) == Filter(q, s)
  {
    if s != [] {
      var s' := s[..|s| - 1];
      assert forall x :: x in s' ==> x in s;
      FilterAgree(p, q, s');
    }
  }

  /** Filtering by `q` and then by `p` is filtering once by their conjunction. */
  lemma {:induction false} FilterBoth<T>(p: T -> bool, q: T -> bool, both: T -> bool, s: seq<T>)
    requires forall x :: both(x) == (q(x) && p(x))
    ensures Filter(p, Filter(q, s)) == Filter(both, s)
  {
    if s != [] {
      var s' := s[..|s| - 1];
      var x := s[|s| - 1];
      FilterBoth(p, q, both, s');
      FilterAppend(p, Filter(q, s'), if q(x) then [x] else []);
      if q(x) {
        assert Filter(p, [x]) == Filter(p, [x][..0]) + (if p(x) then [x] else []);
      }
    }
  }

  /** A predicate and its negation split `s` into two parts whose sizes add up to `|s|`. */
  lemma {:induction false} FilterSplit<T>(p: T -> bool, q: T -> bool, s: seq<T>)
    requires forall x :: q(x) == !p(x)
    ensures |Filter(p, s)| + |Filter(q, s)| == |s|
  {
    if s != [] {
      FilterSplit(p, q, s[..|s| - 1]);
    }
  }

  /** A weaker predicate keeps at least as many elements. */
  lemma {:induction false} FilterMonotone<T>(p: T -> bool, q: T -> bool, s: seq<T>)
    requires forall x :: p(x) ==> q(x)
    ensures |Filter(p, s)| <= |Filter(q, s)|
  {
    if s != [] {
      FilterMonotone(p, q, s[..|s| - 1]);
    }
  }

  /** Filtering leaves nothing exactly when no element satisfies the predicate. */
  lemma FilterEmpty<T>(p: T -> bool, s: seq<T>)
    ensures Filter(p, s) == [] <==> forall x :: x in s ==> !p(x)
  {
    if Filter(p, s) != [] {
      var x := Filter(p, s)[0];
      assert x in Filter(p, s);
    } else {
      forall x | x in s ensures !p(x) {
        FilterMember(p, s, x);
      }
    }
  }

  predicate Distinct<T(==)>(s: seq<T>)
  {
    forall i, j :: 0 <= i < j < |s| ==> s[i] != s[j]
  }

  /** `[...new Set(s)]`: the distinct elements of `s` in the order of their first occurrence. */
  function Dedup<T(==)>(s: seq<T>): (r: seq<T>)
    ensures forall i :: 0 <= i < |r| ==> r[i] in s
    ensures forall i :: 0 <= i < |s| ==> s[i] in r
    ensures Distinct(r)
  {
    if s == [] then []
    else
      var s' := s[..|s| - 1];
      var d := Dedup(s');
      assert s == s' + [s[|s| - 1]];
      if s[|s| - 1] in d then d else d + [s[|s| - 1]]
  }

  /** `r` lists its elements in the order they are first seen in `s`: whenever
      `r[j]` occurs in `s`, every earlier `r[i]` has already occurred before it. */
  ghost predicate FirstSeen<T>(r: seq<T>, s: seq<T>)
  {
    forall i, j, k :: 0 <= i < j < |r| && 0 <= k < |s| && s[k] == r[j] ==> r[i] in s[..k]
  }

  lemma {:induction false} DedupFirstSeen<T>(s: seq<T>)
    ensures FirstSeen(Dedup(s), s)
  {
    if s != [] {
      var n := |s| - 1;
      var s' := s[..n];
      DedupFirstSeen(s');
      var d, r := Dedup(s'), Dedup(s);
      forall i, j, k | 0 <= i < j < |r| && 0 <= k < |s| && s[k] == r[j]
        ensures r[i] in s[..k]
      {
        assert r[i] in d;
        if k < n {
          if j == |d| {
            assert false;
          }
          assert s'[k] == s[k];
          assert s'[..k] == s[..k];
        } else {
          assert s[..k] == s';
        }
      }
    }
  }

  /** First-seen order in a filtered sequence is first-seen order in the original. */
  lemma FirstSeenThroughFilter<T>(r: seq<T>, p: T -> bool, s: seq<T>)
    requires FirstSeen(r, Filter(p, s))
    requires forall x :: x in r ==> p(x)
    ensures FirstSeen(r, s)
  {
    var t, idx := Filter(p, s), Kept(p, s);
    FilterSelects(p, s);
    forall i, j, k | 0 <= i < j < |r| && 0 <= k < |s| && s[k] == r[j]
      ensures r[i] in s[..k]
    {
      assert p(s[k]) by { assert r[j] in r; }
      assert k in idx;
      var k' :| 0 <= k' < |idx| && idx[k'] == k;
      assert t[k'] == r[j];
      assert r[i] in t[..k'];
      var m :| 0 <= m < k' && t[m] == r[i];
      assert idx[m] < k;
      assert s[..k][idx[m]] == r[i];
    }
  }

  /** Number of occurrences of `x` in `s`. */
  function Occurrences<T(==)>(s: seq<T>, x: T): nat
  {
    if s == [] then 0
    else Occurrences(s[..|s| - 1], x) + (if s[|s| - 1] == x then 1 else 0)
  }
}

=== FILE: table_sort.dfy ===
/** The table's sort: one key field, a direction, and the comparator of
    `filtered.sort(...)`, which answers 0 on equal keys. The array is sorted
    in place by a stable insertion sort; `StableSort` is the functional
    specification it is proved against. */
module TableSort {
  import opened Seqs
  import opened Text
  import opened Membership

  /** The columns whose header can be clicked to sort. */
  datatype SortField = MemberId | FirstName | MembershipName | EndDate | SessionsLeft | StatusColumn

  datatype SortDirection = Asc | Desc

  /** The value a string column is compared on (`endDate` as its raw text). */
  function TextKey(field: SortField, m: MembershipData): string
  {
    match field
    case MemberId => m.memberId
    case FirstName => m.firstName
    case MembershipName => m.membershipName
    case EndDate => m.endDate.text
    case StatusColumn => StatusName(m.status)
    case SessionsLeft => ""
  }

  /** `a[sortField] < b[sortField]`: numeric for `sessionsLeft`, lexicographic otherwise. */
  predicate KeyLess(field: SortField, a: MembershipData, b: MembershipData)
  {
    if field == SessionsLeft then a.sessionsLeft < b.sessionsLeft
    else LexLess(TextKey(field, a), TextKey(field, b))
  }

  /** Neither key is below the other: the keys are equal. */
  predicate SameKey(field: SortField, a: MembershipData, b: MembershipData)
  {
    if field == SessionsLeft then a.sessionsLeft == b.sessionsLeft
    else TextKey(field, a) == TextKey(field, b)
  }

  lemma KeyOrder(field: SortField, a: MembershipData, b: MembershipData)
    ensures SameKey(field, a, b) <==> !KeyLess(field, a, b) && !KeyLess(field, b, a)
    ensures KeyLess(field, a, b) ==> !KeyLess(field, b, a)
  {
    if field != SessionsLeft {
      var s, t := TextKey(field, a), TextKey(field, b);
      LexLessTotal(s, t);
      LexLessIrreflexive(s);
      if LexLess(s, t) { LexLessAsymmetric(s, t); }
    }
  }

  lemma KeyLessTransitive(field: SortField, a: MembershipData, b: MembershipData, c: MembershipData)
    requires KeyLess(field, a, b) && KeyLess(field, b, c)
    ensures KeyLess(field, a, c)
  {
    if field != SessionsLeft {
      LexLessTransitive(TextKey(field, a), TextKey(field, b), TextKey(field, c));
    }
  }

  /** `a` must be placed after `b`: its key is above `b`'s for `Asc`, below it for `Desc`. */
  predicate After(field: SortField, dir: SortDirection, a: MembershipData, b: MembershipData)
  {
    if dir == Asc then KeyLess(field, b, a) else KeyLess(field, a, b)
  }

  /** The comparator passed to `sort`. It answers 0 exactly on equal keys and
      is positive exactly when `a` belongs after `b` in the chosen direction. */
  function Compare(field: SortField, dir: SortDirection, a: MembershipData, b: MembershipData): (r: int)
    ensures r == 0 <==> SameKey(field, a, b)
    ensures r > 0 <==> After(field, dir, a, b)
    ensures r < 0 <==> After(field, dir, b, a)
  {
    KeyOrder(field, a, b);
    if KeyLess(field, a, b) then (if dir == Asc then -1 else 1)
    else if KeyLess(field, b, a) then (if dir == Asc then 1 else -1)
    else 0
  }

  lemma AfterAsymmetric(field: SortField, dir: SortDirection, a: MembershipData, b: MembershipData)
    requires After(field, dir, a, b)
    ensures !After(field, dir, b, a) && !SameKey(field, a, b)
  {
    KeyOrder(field, a, b);
  }

  /** "Not after" is transitive: together with asymmetry, the comparator is a total preorder. */
  lemma NotAfterTransitive(field: SortField, dir: SortDirection, a: MembershipData, b: MembershipData, c: MembershipData)
    requires !After(field, dir, a, b) && !After(field, dir, b, c)
    ensures !After(field, dir, a, c)
  {
    KeyOrder(field, a, b);
    KeyOrder(field, b, c);
    KeyOrder(field, a, c);
    if After(field, dir, a, c) {
      if dir == Asc {
        if KeyLess(field, b, c) { KeyLessTransitive(field, c, a, b); }
        else if KeyLess(field, a, b) { KeyLessTransitive(field, c, a, b); }
      } else {
        if KeyLess(field, c, b) { KeyLessTransitive(field, a, c, b); }
        else if KeyLess(field, b, a) { KeyLessTransitive(field, b, a, c); }
      }
      assert false;
    }
  }

  lemma SameKeyTransitive(field: SortField, a: MembershipData, b: MembershipData, c: MembershipData)
    requires SameKey(field, a, b) && SameKey(field, b, c)
    ensures SameKey(field, a, c)
  {
  }

  /** The comparator handed to `sort`, seen as a relation: `after(a, b)`
      when the comparator answers a positive number, that is, when `a` must
      be placed after `b`. */
  type Comparator = (MembershipData, MembershipData) -> bool

  /** The table's comparator for a column and a direction. */
  function Order(field: SortField, dir: SortDirection): Comparator
  {
    (a: MembershipData, b: MembershipData) => Compare(field, dir, a, b) > 0
  }

  /** What insertion sort needs of a comparator: it is asymmetric, and "not
      after" is transitive, so it orders the records as a total preorder. */
  ghost predicate Consistent(after: Comparator)
  {
    (forall a, b :: after(a, b) ==> !after(b, a))
    && (forall a, b, c :: !after(a, b) && !after(b, c) ==> !after(a, c))
  }

  lemma OrderConsistent(field: SortField, dir: SortDirection)
    ensures Consistent(Order(field, dir))
  {
    var after := Order(field, dir);
    forall a, b | after(a, b) ensures !after(b, a) {
      AfterAsymmetric(field, dir, a, b);
    }
    forall a, b, c | !after(a, b) && !after(b, c) ensures !after(a, c) {
      NotAfterTransitive(field, dir, a, b, c);
    }
  }

  /** No element is placed after a later one. */
  ghost predicate SortedBy(after: Comparator, s: seq<MembershipData>)
  {
    forall i, j :: 0 <= i < j < |s| ==> !after(s[i], s[j])
  }

  /** Inserts `x` into `t` after every element it need not precede: the step
      of insertion sort, which moves `x` left past the elements that belong
      after it and stops at the first one that does not. */
  function InsertStable(after: Comparator, t: seq<MembershipData>, x: MembershipData): seq<MembershipData>
  {
    if t == [] then [x]
    else if after(t[|t| - 1], x) then InsertStable(after, t[..|t| - 1], x) + [t[|t| - 1]]
    else t + [x]
  }

  /** Where `InsertStable` puts `x`. */
  function InsertPos(after: Comparator, t: seq<MembershipData>, x: MembershipData): (j: nat)
    ensures j <= |t|
  {
    if t == [] then 0
    else if after(t[|t| - 1], x) then InsertPos(after, t[..|t| - 1], x)
    else |t|
  }

  /** Insertion sort with a comparator. */
  function SortBy(after: Comparator, s: seq<MembershipData>): seq<MembershipData>
  {
    if s == [] then []
    else InsertStable(after, SortBy(after, s[..|s| - 1]), s[|s| - 1])
  }

  /** The table's order: insertion sort with the table's comparator. */
  function StableSort(field: SortField, dir: SortDirection, s: seq<MembershipData>): seq<MembershipData>
  {
    SortBy(Order(field, dir), s)
  }

  /** No record is placed after a later one, for the column and direction. */
  ghost predicate Sorted(field: SortField, dir: SortDirection, s: seq<MembershipData>)
  {
    forall i, j :: 0 <= i < j < |s| ==> !After(field, dir, s[i], s[j])
  }

  /** Inserting at a position `j` where everything from `j` on belongs after
      `x` and the element before `j` does not. */
  lemma {:induction false} InsertAt(after: Comparator, t: seq<MembershipData>, x: MembershipData, j: nat)
    requires j <= |t|
    requires forall k :: j <= k < |t| ==> after(t[k], x)
    requires j > 0 ==> !after(t[j - 1], x)
    ensures InsertStable(after, t, x) == t[..j] + [x] + t[j..]
    decreases |t|
  {
    if t != [] && j < |t| {
      var n := |t| - 1;
      assert after(t[n], x);
      InsertAt(after, t[..n], x, j);
      assert t[..n][..j] == t[..j];
      assert t[j..] == t[..n][j..] + [t[n]];
    }
  }

  lemma {:induction false} InsertPosSpec(after: Comparator, t: seq<MembershipData>, x: MembershipData)
    ensures forall k :: InsertPos(after, t, x) <= k < |t| ==> after(t[k], x)
    ensures InsertPos(after, t, x) > 0 ==> !after(t[InsertPos(after, t, x) - 1], x)
  {
    if t != [] && after(t[|t| - 1], x) {
      var n := |t| - 1;
      var t' := t[..n];
      InsertPosSpec(after, t', x);
      var j := InsertPos(after, t', x);
      assert InsertPos(after, t, x) == j;
      forall k | j <= k < |t| ensures after(t[k], x) {
        if k < n { assert t[k] == t'[k]; }
      }
      if j > 0 { assert t[j - 1] == t'[j - 1]; }
    }
  }

  /** In a sorted sequence, `x` goes after every element before its position
      and before every element from it on. */
  lemma InsertSplit(after: Comparator, t: seq<MembershipData>, x: MembershipData) returns (j: nat)
    requires Consistent(after) && SortedBy(after, t)
    ensures j <= |t|
    ensures InsertStable(after, t, x) == t[..j] + [x] + t[j..]
    ensures forall k :: 0 <= k < j ==> !after(t[k], x)
    ensures forall k :: j <= k < |t| ==> after(t[k], x)
  {
    j := InsertPos(after, t, x);
    InsertPosSpec(after, t, x);
    InsertAt(after, t, x, j);
    forall k | 0 <= k < j ensures !after(t[k], x) {
      if k < j - 1 {
        assert !after(t[k], t[j - 1]);
      }
    }
  }

  lemma InsertSorted(after: Comparator, t: seq<MembershipData>, x: MembershipData)
    requires Consistent(after) && SortedBy(after, t)
    ensures SortedBy(after, InsertStable(after, t, x))
    ensures multiset(InsertStable(after, t, x)) == multiset(t) + multiset{x}
  {
    var j := InsertSplit(after, t, x);
    var r := InsertStable(after, t, x);
    forall a, b | 0 <= a < b < |r| ensures !after(r[a], r[b]) {
      if a < j && b == j {
      } else if a == j && b > j {
        assert after(t[b - 1], x);
      } else if a < j && b > j {
        assert r[b] == t[b - 1];
      } else if a > j {
        assert r[a] == t[a - 1] && r[b] == t[b - 1];
      }
    }
    assert t == t[..j] + t[j..];
  }

  /** No element placed after `x` belongs to a class none of whose members
      goes after `x`. */
  lemma NoneAfterInClass(after: Comparator, cls: MembershipData -> bool, hi: seq<MembershipData>, x: MembershipData)
    requires forall k :: 0 <= k < |hi| ==> after(hi[k], x)
    requires forall m :: cls(m) ==> !after(m, x)
    ensures Filter(cls, hi) == []
  {
    forall m | m in hi ensures !cls(m) {
      var k :| 0 <= k < |hi| && hi[k] == m;
    }
    FilterEmpty(cls, hi);
  }

  lemma InsertKeepsClassAt(after: Comparator, cls: MembershipData -> bool, t: seq<MembershipData>, x: MembershipData, j: nat)
    requires j <= |t|
    requires InsertStable(after, t, x) == t[..j] + [x] + t[j..]
    requires forall k :: j <= k < |t| ==> after(t[k], x)
    requires cls(x) ==> forall m :: cls(m) ==> !after(m, x)
    ensures Filter(cls, InsertStable(after, t, x)) == Filter(cls, t) + (if cls(x) then [x] else [])
  {
    var lo, hi := t[..j], t[j..];
    if cls(x) {
      NoneAfterInClass(after, cls, hi, x);
    }
    FilterSplice(cls, lo, x, hi);
    assert lo + hi == t;
  }

  /** Inserting `x` appends it to its class and leaves every class order as it was. */
  lemma InsertKeepsClass(after: Comparator, cls: MembershipData -> bool, t: seq<MembershipData>, x: MembershipData)
    requires Consistent(after) && SortedBy(after, t)
    requires cls(x) ==> forall m :: cls(m) ==> !after(m, x)
    ensures Filter(cls, InsertStable(after, t, x)) == Filter(cls, t) + (if cls(x) then [x] else [])
  {
    var j := InsertSplit(after, t, x);
    InsertKeepsClassAt(after, cls, t, x, j);
  }

  lemma {:induction false} SortBySorted(after: Comparator, s: seq<MembershipData>)
    requires Consistent(after)
    ensures SortedBy(after, SortBy(after, s))
    ensures multiset(SortBy(after, s)) == multiset(s)
  {
    if s != [] {
      var s' := s[..|s| - 1];
      SortBySorted(after, s');
      InsertSorted(after, SortBy(after, s'), s[|s| - 1]);
      assert s == s' + [s[|s| - 1]];
    }
  }

  /** Sorting keeps the order within a class whose members never go after one another. */
  lemma {:induction false} SortByStable(after: Comparator, cls: MembershipData -> bool, s: seq<MembershipData>)
    requires Consistent(after)
    requires forall a, b :: cls(a) && cls(b) ==> !after(a, b)
    ensures Filter(cls, SortBy(after, s)) == Filter(cls, s)
  {
    if s != [] {
      var s', x := s[..|s| - 1], s[|s| - 1];
      var t := SortBy(after, s');
      var tail := if cls(x) then [x] else [];
      SortByStable(after, cls, s');
      SortBySorted(after, s');
      assert cls(x) ==> forall m :: cls(m) ==> !after(m, x);
      InsertKeepsClass(after, cls, t, x);
      assert SortBy(after, s) == InsertStable(after, t, x);
      assert Filter(cls, s) == Filter(cls, s') + tail;
    }
  }

  lemma {:induction false} SortByIdentity(after: Comparator, s: seq<MembershipData>)
    requires SortedBy(after, s)
    ensures SortBy(after, s) == s
  {
    if s != [] {
      var s' := s[..|s| - 1];
      assert SortedBy(after, s');
      SortByIdentity(after, s');
      assert s == s' + [s[|s| - 1]];
    }
  }

  lemma SortedAgree(field: SortField, dir: SortDirection, s: seq<MembershipData>)
    ensures Sorted(field, dir, s) <==> SortedBy(Order(field, dir), s)
  {
  }

  /** The sorted output is ordered: non-decreasing on the key for `Asc`,
      non-increasing for `Desc`, and a permutation of the input. */
  lemma StableSortSorted(field: SortField, dir: SortDirection, s: seq<MembershipData>)
    ensures Sorted(field, dir, StableSort(field, dir, s))
    ensures multiset(StableSort(field, dir, s)) == multiset(s)
    ensures forall i, j :: 0 <= i < j < |StableSort(field, dir, s)| ==>
              (dir == Asc ==> !KeyLess(field, StableSort(field, dir, s)[j], StableSort(field, dir, s)[i]))
              && (dir == Desc ==> !KeyLess(field, StableSort(field, dir, s)[i], StableSort(field, dir, s)[j]))
  {
    OrderConsistent(field, dir);
    SortBySorted(Order(field, dir), s);
    SortedAgree(field, dir, StableSort(field, dir, s));
  }

  /** The records whose key equals `pivot`'s. */
  function SameKeyAs(field: SortField, pivot: MembershipData): MembershipData -> bool
  {
    m => SameKey(field, m, pivot)
  }

  /** The sort is stable: records with equal keys keep their relative order. */
  lemma StableSortStable(field: SortField, dir: SortDirection, s: seq<MembershipData>, pivot: MembershipData)
    ensures Filter(SameKeyAs(field, pivot), StableSort(field, dir, s)) == Filter(SameKeyAs(field, pivot), s)
  {
    var after, cls := Order(field, dir), SameKeyAs(field, pivot);
    OrderConsistent(field, dir);
    forall a, b | cls(a) && cls(b) ensures !after(a, b) {
      SameKeyTransitive(field, a, pivot, b);
      if after(a, b) { AfterAsymmetric(field, dir, a, b); }
    }
    SortByStable(after, cls, s);
  }

  /** Sorting an already sorted sequence changes nothing. */
  lemma StableSortIdentity(field: SortField, dir: SortDirection, s: seq<MembershipData>)
    requires Sorted(field, dir, s)
    ensures StableSort(field, dir, s) == s
  {
    SortedAgree(field, dir, s);
    SortByIdentity(Order(field, dir), s);
  }

  /** Sorting twice is sorting once. */
  lemma StableSortIdempotent(field: SortField, dir: SortDirection, s: seq<MembershipData>)
    ensures StableSort(field, dir, StableSort(field, dir, s)) == StableSort(field, dir, s)
  {
    StableSortSorted(field, dir, s);
    StableSortIdentity(field, dir, StableSort(field, dir, s));
  }

  /** Moves right by one slot every element of `a[..i]`, from the back, that
      belongs after `x`; returns the slot this frees for `x`. `done` is the
      prefix as it was before the call. */
  method ShiftRight(a: array<MembershipData>, i: nat, x: MembershipData, after: Comparator,
                    ghost done: seq<MembershipData>) returns (j: nat)
    requires i < a.Length && done == a[..i]
    modifies a
    ensures j <= i
    ensures forall k :: 0 <= k < j ==> a[k] == done[k]
    ensures forall k :: j < k <= i ==> a[k] == done[k - 1]
    ensures a[i + 1..] == old(a[i + 1..])
    ensures forall k :: j <= k < i ==> after(done[k], x)
    ensures j > 0 ==> !after(done[j - 1], x)
  {
    j := i;
    while j > 0 && after(a[j - 1], x)
      invariant 0 <= j <= i
      invariant forall k :: 0 <= k < j ==> a[k] == done[k]
      invariant forall k :: j < k <= i ==> a[k] == done[k - 1]
      invariant forall k :: i < k < a.Length ==> a[k] == old(a[k])
      invariant forall k :: j <= k < i ==> after(done[k], x)
    {
      a[j] := a[j - 1];
      j := j - 1;
    }
    assert a[i + 1..] == old(a[i + 1..]);
  }

  /** A sequence that agrees with `done` before `j`, holds `x` at `j` and
      agrees with `done` shifted by one after `j` is `done` with `x` spliced in at `j`. */
  lemma Spliced(done: seq<MembershipData>, x: MembershipData, j: nat, b: seq<MembershipData>)
    requires j <= |done| && |b| == |done| + 1
    requires forall k :: 0 <= k < j ==> b[k] == done[k]
    requires b[j] == x
    requires forall k :: j < k < |b| ==> b[k] == done[k - 1]
    ensures b == done[..j] + [x] + done[j..]
  {
    var want := done[..j] + [x] + done[j..];
    forall k | 0 <= k < |b| ensures b[k] == want[k] {
      if k < j {
        assert want[k] == done[k];
      } else if k > j {
        assert want[k] == done[k - 1];
      }
    }
  }

  /** One step of the in-place sort: `a[..i]` is sorted, and `a[i]` moves
      left past the elements that belong after it. */
  method InsertInPlace(a: array<MembershipData>, i: nat, after: Comparator)
    requires i < a.Length
    modifies a
    ensures a[..i + 1] == InsertStable(after, old(a[..i]), old(a[i]))
    ensures a[i + 1..] == old(a[i + 1..])
  {
    ghost var done, rest := a[..i], a[i + 1..];
    var x := a[i];
    var j := ShiftRight(a, i, x, after, done);
    InsertAt(after, done, x, j);
    a[j] := x;
    ghost var b := a[..];
    assert b[i + 1..] == rest;
    Spliced(done, x, j, b[..i + 1]);
  }

  /** The sort of a longer prefix inserts the next element into the sort of the shorter one. */
  lemma SortByStep(after: Comparator, s: seq<MembershipData>, i: nat)
    requires i < |s|
    ensures SortBy(after, s[..i + 1]) == InsertStable(after, SortBy(after, s[..i]), s[i])
  {
    assert s[..i + 1][..i] == s[..i];
  }

  /** `filtered.sort(comparator)`: reorders the array in place. */
  method SortInPlace(a: array<MembershipData>, field: SortField, dir: SortDirection)
    modifies a
    ensures a[..] == StableSort(field, dir, old(a[..]))
  {
    var after := Order(field, dir);
    ghost var input := a[..];
    var i := 0;
    while i < a.Length
      invariant 0 <= i <= a.Length
      invariant a[..i] == SortBy(after, input[..i])
      invariant a[i..] == input[i..]
    {
      ghost var sorted := a[..i];
      assert a[i] == input[i];
      InsertInPlace(a, i, after);
      SortByStep(after, input, i);
      assert a[..i + 1] == InsertStable(after, sorted, input[i]);
      assert a[i + 1..] == input[i + 1..];
      i := i + 1;
    }
    assert input[..a.Length] == input;
  }
}

=== FILE: text.dfy ===
/** String operations the table relies on: ASCII lower-casing, substring
    search (`includes`), decimal rendering of an integer and the relational
    `<` of JavaScript strings. */
module Text {

  /** `toLowerCase`, restricted to the ASCII letters. */
  function Lower(s: string): (r: string)
    ensures |r| == |s|
    ensures forall i :: 0 <= i < |s| ==> (if 'A' <= s[i] <= 'Z' then r[i] as int == s[i] as int + 32 else r[i] == s[i])
  {
    if s == [] then []
    else
      var c := s[0];
      [if 'A' <= c <= 'Z' then (c as int + 32) as char else c] + Lower(s[1..])
  }

  /** `t` occurs in `s` starting at offset `i`. */
  predicate OccursAt(s: string, t: string, i: int)
  {
    0 <= i <= |s| - |t| && s[i..i + |t|] == t
  }

  /** `s.includes(t)`: `t` occurs in `s` at some offset. */
  predicate Contains(s: string, t: string)
  {
    exists i :: 0 <= i <= |s| - |t| && OccursAt(s, t, i)
  }

  /** Every string contains the empty string. */
  lemma ContainsEmpty(s: string)
    ensures Contains(s, "")
  {
    assert OccursAt(s, "", 0);
  }

  predicate IsDigit(c: char) { '0' <= c <= '9' }

  /** The character of a decimal digit. */
  function Digit(d: nat): (c: char)
    requires d < 10
    ensures IsDigit(c) && c as int - '0' as int == d
  {
    ('0' as int + d) as char
  }

  function NatToString(n: nat): (r: string)
    ensures |r| > 0
    decreases n
  {
    if n < 10 then [Digit(n)] else NatToString(n / 10) + [Digit(n % 10)]
  }

  /** `Number.prototype.toString` for an integer value. */
  function IntToString(n: int): string
  {
    if n < 0 then "-" + NatToString(-n) else NatToString(n)
  }

  /** `s < t` on strings: lexicographic by character code, a proper prefix first. */
  predicate LexLess(s: string, t: string)
  {
    if s == [] then t != []
    else if t == [] then false
    else if s[0] != t[0] then s[0] < t[0]
    else LexLess(s[1..], t[1..])
  }

  /** `<` on strings is a strict total order: irreflexive, transitive, and
      any two different strings are ordered one way. */
  lemma {:induction false} LexLessIrreflexive(s: string)
    ensures !LexLess(s, s)
  {
    if s != [] {
      LexLessIrreflexive(s[1..]);
    }
  }

  lemma {:induction false} LexLessAsymmetric(s: string, t: string)
    requires LexLess(s, t)
    ensures !LexLess(t, s)
  {
    if s != [] && t != [] && s[0] == t[0] {
      LexLessAsymmetric(s[1..], t[1..]);
    }
  }

  lemma {:induction false} LexLessTransitive(s: string, t: string, u: string)
    requires LexLess(s, t) && LexLess(t, u)
    ensures LexLess(s, u)
  {
    if s != [] && t != [] && u != [] && s[0] == t[0] && t[0] == u[0] {
      LexLessTransitive(s[1..], t[1..], u[1..]);
    }
  }

  lemma {:induction false} LexLessTotal(s: string, t: string)
    ensures s == t || LexLess(s, t) || LexLess(t, s)
  {
    if s != [] && t != [] && s[0] == t[0] {
      LexLessTotal(s[1..], t[1..]);
      if s[1..] == t[1..] {
        assert s == [s[0]] + s[1..] && t == [t[0]] + t[1..];
      }
    }
  }
}
